=== FILE: README.md ===
# FeedbackServer session and matchmaking bookkeeping, in Dafny

This project models the bookkeeping core of the FeedbackServer UDP game
server:

- which clients exist;
- whether each one sits in the lobby or in a game room;
- the packet-driven moves between the two;
- what the server sends in reply.

It has four modules:

- `Packets` (`packets.dfy`): packet kinds and type codes, payloads, the
  packet ordering, and the documented yaw range (CS6Packet.hpp).
- `Clients` (`clients.dfy`): the client record, the global client counter
  that drives player ids, and the nine-entry colour table
  (ConnectedUDPClient.cpp).
- `Registry` (`registry.dfy`): the `Server` class. It holds the map from
  address key to client record, update-or-create on every datagram, the
  two-phase inactivity sweep, the all-to-all player-data fan-out, and one
  iteration of the server loop (UDPServer.cpp).
- `Matchmaking` (`matchmaking.dfy`): the `Room` and `Lobby` classes
  (GameRoom.cpp, GameLobby.cpp). They share one module because a room
  points at its lobby and the lobby holds its rooms.

State that the source updates in place is kept in classes:

- `Client`, `ClientCounter` (the static `s_numberOfClients`), `Server`,
  `Room` and `Lobby`.
- A room's member set is a duplicate-free sequence, in iteration order.
- The lobby's user set is a `set<Client>`.

Every transmission is appended to the server's send log `Server.sent` as
`Send(to, body, reliable)`.

Some inputs are parameters rather than computed values:

- The clock is `now`, a parameter. Time is an exact `real`.
- Random spawn and flag positions are parameters (`spawn`, `newFlag`).
- The receive result, IP text, port and position of a datagram are
  parameters of `Server.Step`.

The source files come from two protocol revisions, and the model unifies
them:

- The lobby's Ack, JoinRoom, CreateRoom and LobbyUpdate are the header's
  `TYPE_Acknowledge`, `TYPE_JoinGame`, `TYPE_CreateGame` and `TYPE_GameList`.
- Nack and KeepAlive have no type code in the shown header, so `Code`
  gives them none.

Some helpers are called but not shown; they are read as follows:

- `isRoomEmpty` means no players.
- `getNumPlayersInRoom` is the member count.
- The boolean argument of the two-argument `addPlayer` means "become owner".
  It takes effect only when the player is actually added.

`NOT_IN_GAME_ID` is not shown. It is taken as 0, the same value that
`endGameRoom` writes literally. `NUM_GAME_ROOMS` is a constructor parameter
of `Lobby`.

Two loops are modelled as a search followed by a single call:

- the lobby's routing loop;
- the room loop of `removeClientDueToInactivity`.

Room numbers are 1, 2, … in order, so at most one room can match. The
routing loop returns at its first match. In the removal loop, once the room
has ended, the client's game id is 0 or the later rooms carry other
numbers. The result is therefore the same.

The lobby's packet handler dereferences the server unchecked when it replies
to a JoinRoom or CreateRoom. It also does so when a room moves the flag on a
Victory. `Lobby.OnClientPacketReceived` and `Room.OnClientPacketReceived`
therefore require a server in exactly those cases.

## Model

| member | source | states |
|---|---|---|
| Packets.KindOfCode | CS6Packet.hpp:25-32 | a code reads back as a kind exactly for the codes 2, 3 and 4 (the player-data, new-player-ack and player-exit ids of UDPServer.hpp lines 18-19 and 42) and 10 to 17 (the game codes) |
| Packets.Code | CS6Packet.hpp:25-32 | a kind has a type code exactly when it is not Nack or KeepAlive, which neither header numbers; the game kinds take the header codes and the registry kinds the ids of UDPServer.hpp lines 18-19 and 42 |
| Packets.GameKindCodes | CS6Packet.hpp:25-32 | the eight game-protocol kinds carry codes between 10 and 17 |
| Packets.CodesDistinct | CS6Packet.hpp:25-32 | no two kinds share a type code |
| Packets.KindOfCodeInverts | CS6Packet.hpp:25-32 | every coded kind is read back from its own code |
| Packets.CodeInvertsKindOf | CS6Packet.hpp:25-32 | every known code is the code of the kind it reads as |
| Packets.Less | CS6Packet.hpp:130-137 | the order on packet numbers never puts a packet before itself |
| Packets.LessTransitive | CS6Packet.hpp:130-137 | the packet ordering is transitive |
| Packets.EqualNumbersEquivalent | CS6Packet.hpp:130-137 | packets with equal numbers are mutually not-less |
| Packets.LessIgnoresAllButNumber | CS6Packet.hpp:130-137 | the ordering depends on the packet numbers only, not on kind, colour, timestamp or payload |
| Clients.ColorFor | ConnectedUDPClient.cpp:25-82 | a colour is assigned exactly for counter values 1 to 9 |
| Clients.ColorsDistinct | ConnectedUDPClient.cpp:28-81 | the nine table colours are pairwise distinct |
| Clients.ClientCounter.constructor | ConnectedUDPClient.cpp:3 | the client count starts at 0 |
| Clients.Client.constructor | ConnectedUDPClient.cpp:11-21 | the counter goes up by one; the player id is the new count and the colour is the table entry for it; last-seen 0, orientation 0, not in the lobby, game id `NOT_IN_GAME_ID`, nothing outstanding |
| Clients.Client.Release | ConnectedUDPClient.cpp:5-8 | destruction lowers the counter by one |
| Clients.IdReusedAfterRelease | ConnectedUDPClient.cpp:5-15 | because destruction decrements the counter, releasing the client whose id is the live count (the most recently created one, with nothing created or released since) and then creating a client gives the new client that same player id, and the counter ends at that id |
| Registry.DigitsRoundTrip | UDPServer.cpp:146 | the decimal digits of a natural number read back as that number |
| Registry.DecimalRoundTrip | UDPServer.cpp:146 | the `itoa` text of any port, with its sign, reads back as that port |
| Registry.DecimalString | UDPServer.cpp:146 | the `itoa` text of a port is never empty and never contains ':', so the separator of the corrected key cannot occur in it |
| Registry.AppendIpAndPort | UDPServer.cpp:143-152 | the output keeps what it held, then the address text, then the port digits, with no separator |
| Registry.KeysCollide | UDPServer.cpp:143-152 | two different endpoints, ("10.0.0.1", 25) and ("10.0.0.12", 5), get the same key |
| Registry.AppendIpAndPortSeparated | UDPServer.cpp:143-152 | the corrected key puts a ':' between the address and the port |
| Registry.SeparatedKeyInjective | UDPServer.cpp:143-152 | with the separator, equal keys mean equal address and equal port |
| Registry.FanOut | UDPServer.cpp:274-290 | each of n recipients receives all m bodies: n·m sends |
| Registry.FanOutAt | UDPServer.cpp:274-290 | send i·m+j of a fan-out is body j to recipient i, unreliable |
| Registry.Server.constructor | UDPServer.cpp:31-32 | the registry starts with the given client counter, no clients, an empty send log, the flag at the origin, and the packet-update accumulator at 0 with no earlier fan-out call |
| Registry.Server.UpdateOrCreateNewClient | UDPServer.cpp:155-202 | known key: that client's last-seen and position are refreshed and the key set and send log are unchanged; unknown key: exactly one fresh client is registered under it, with the key as user id, and sent one new-player ack carrying its id, position and colour |
| Registry.Server.ExpiredClientKeys | UDPServer.cpp:207-222 | the first sweep phase collects, without repeats, exactly the keys whose client is silent for strictly more than 5 seconds |
| Registry.Server.CheckForExpiredClients | UDPServer.cpp:205-239 | exactly the expired keys are erased, every other entry keeps its client, no remaining client is expired, and the counter drops by the number erased |
| Registry.Server.SnapshotAll | UDPServer.cpp:255-272 | the first fan-out pass visits every key once and takes each visited client's id, position and colour |
| Registry.Server.SendAllTo | UDPServer.cpp:279-289 | one recipient is sent every snapshot in order |
| Registry.Server.SendToEach | UDPServer.cpp:274-290 | the send log grows by the full fan-out |
| Registry.Server.SendPlayerDataToClients | UDPServer.cpp:242-294 | the elapsed time is added (0 on the first call); above 0.0045 s the accumulator restarts at 0 and every client receives every client's snapshot; otherwise the accumulator holds the total and nothing is sent |
| Registry.Server.Step | UDPServer.cpp:100-135 | one loop iteration (sweep, update-or-create on a positive receive result, fan-out): the key set becomes exactly the unexpired old keys plus, on a positive receive result, the datagram's key; no client is expired; unexpired entries keep their client; expired keys that did not send are gone and the counter drops by their number; the datagram's key is present and refreshed with the time and position, keeping its user id if it survived the sweep, and otherwise is a fresh client with the key as user id, the next player id and that id's colour, which is sent its new-player ack; after that ack, when the accumulated time exceeds 0.0045 s, every client is sent every client's snapshot in the returned visiting order and the accumulator restarts at 0, and otherwise nothing more is sent and the accumulator holds the total; every surviving client other than the datagram's keeps its record and user id, so those snapshots carry the records as they were before the step, and no other client object is written; the flag is kept |
| Registry.Server.SweepAndReceive | UDPServer.cpp:104-127 | the sweep and then the receive: the key set becomes exactly the unexpired old keys plus, on a positive receive result, the datagram's key; no client is expired; expired keys that did not send are gone; unexpired entries keep their client; the counter drops by the number erased and rises by one for a key that is new after the sweep, which becomes a fresh client with the key as user id, the next player id and that id's colour and is sent its new-player ack, the only send; a surviving key is refreshed with the time and position and keeps its user id; every other surviving client keeps its record and user id, and no other client object is written |
| Registry.Server.ReceiveDatagram | UDPServer.cpp:115-127 | the key set gains the datagram's key on a positive receive result and is otherwise kept; a non-positive receive result changes nothing, no client object included; a known key is refreshed with the time and position, keeps its user id, and nothing is sent or counted; an unknown key is added as one fresh client with the key as user id, the next player id and that id's colour, the counter rises by one and its new-player ack is sent; every old key keeps its client object, and every client other than the datagram key's keeps its record and user id, being outside what the call may write |
| Matchmaking.RoomAckEffect | GameRoom.cpp:51-91 | a room Ack always refreshes last-seen and removes exactly the acknowledged entry, and only for Reset, Victory and JoinLobby acks; all else is kept |
| Matchmaking.AfterRoomPacket | GameRoom.cpp:51-112 | no room packet moves the client between the lobby and a room, and none adds or rewrites an outstanding entry |
| Matchmaking.RoomPacketIdempotent | GameRoom.cpp:51-106 | applying the room's client-record update for one packet twice, at the same time, gives the same record as applying it once (the Victory flag move and broadcast are outside this statement) |
| Matchmaking.UpdateOverwrites | GameRoom.cpp:98-106 | an Update copies position, velocity and yaw verbatim, refreshes last-seen and touches nothing else |
| Matchmaking.ClientResetIgnored | GameRoom.cpp:93-112 | a client-sent Reset or Victory leaves the client record unchanged |
| Matchmaking.YawNotEnforced | CS6Packet.hpp:95-98 | for every Update, whatever its yaw, the yaw is stored as is: nothing checks the documented 0 to 359 range, so the stored orientation is out of range exactly when the packet's is |
| Matchmaking.LobbyAckClearsEveryKind | GameLobby.cpp:295-308 | the lobby's Ack removes the numbered entry whatever kind is acknowledged, and agrees with the room's Ack for Reset, Victory and JoinLobby |
| Matchmaking.KeepAliveOnlyRefreshes | GameLobby.cpp:310-312 | a lobby KeepAlive refreshes last-seen and nothing else |
| Matchmaking.AfterLobbyPacket | GameLobby.cpp:295-317 | an Ack, KeepAlive or unsupported packet in the lobby keeps the seat, position, velocity and yaw, removes at most the acknowledged outstanding entry (only for an Ack) and rewrites none, and either leaves the record unchanged or sets last-seen to the time |
| Matchmaking.VictorySends | GameRoom.cpp:268-297 | the victory broadcast has two sends per member |
| Matchmaking.VictorySendsAt | GameRoom.cpp:268-297 | member i receives, at positions 2i and 2i+1, a Victory naming the winner and then a Reset with the new flag and the member's own position and colour |
| Matchmaking.VictorySendsReliable | GameRoom.cpp:277-296 | every victory-broadcast send is reliable |
| Matchmaking.JoinVerdict | GameLobby.cpp:168-232 | JoinRoom is admitted exactly for an existing room with players; every refusal is RoomEmpty |
| Matchmaking.CreateVerdict | GameLobby.cpp:245-293 | CreateRoom is admitted exactly for an existing empty room; a refusal is BadRoomID exactly when the room does not exist |
| Matchmaking.ExactlyOneWayIn | GameLobby.cpp:171-293 | for an existing room exactly one of JoinRoom and CreateRoom is admitted |
| Matchmaking.UnknownRoomRefused | GameLobby.cpp:215-293 | for an unknown room JoinRoom is refused as RoomEmpty (not BadRoomID) and CreateRoom as BadRoomID |
| Matchmaking.Reply | GameLobby.cpp:177-292 | the reply is an Ack exactly when admitted, and every Ack or Nack echoes the request's kind and number |
| Matchmaking.Room.constructor | GameRoom.cpp:19-34 | number, owner, server and lobby are stored; the timer starts at 0 with the current time as its stamp; a non-null owner (with a server) becomes the only player, leaves the lobby, takes the room number and spawn and is sent its Reset, with the server's flag and bookkeeping kept; without a server the owner is untouched; the owner's user id is kept |
| Matchmaking.Room.AddPlayer | GameRoom.cpp:116-158 | a null player, a null server or a current member changes nothing; otherwise the player is appended once, leaves the lobby, takes the room number and the spawn position, becomes owner if asked, and receives exactly one reliable Reset carrying flag, spawn and its colour |
| Matchmaking.Room.OnClientPacketReceived | GameRoom.cpp:44-113 | the client record becomes AfterRoomPacket of the packet; a Victory moves the flag and appends the victory broadcast; any other packet leaves the server unchanged |
| Matchmaking.Room.SendVictoryAndResetPacketToAllClients | GameRoom.cpp:252-298 | the send log grows by exactly the victory broadcast for the members, in member order |
| Matchmaking.Room.SendVictoryAndReset | GameRoom.cpp:271-296 | one member is sent a reliable Victory naming the winner and then a reliable Reset with the flag, its own position and its colour; the flag and the server's client bookkeeping are unchanged |
| Matchmaking.Room.SendUpdatePacketsToPlayers | GameRoom.cpp:161-221 | without a server nothing changes; otherwise the elapsed time accumulates, and above 0.0045 s it restarts at 0 and every member receives every member's Update, \|players\|² unreliable sends |
| Matchmaking.Room.CollectUpdates | GameRoom.cpp:178-200 | the first pass yields one Update per member, in member order, carrying that member's position, velocity and yaw |
| Matchmaking.Room.EndGameRoom | GameRoom.cpp:224-249 | without a lobby or a server nothing changes; otherwise every member joins the lobby set, is marked in the lobby with game id 0 and is sent one unreliable JoinLobby; the member list and owner are kept |
| Matchmaking.Room.ReturnToLobby | GameRoom.cpp:234-247 | one member goes to the lobby set with game id 0 and is sent its JoinLobby |
| Matchmaking.Lobby.constructor | GameLobby.cpp:15-31 | exactly `NUM_GAME_ROOMS` fresh rooms, numbered 1 to `NUM_GAME_ROOMS` in order, each empty with a null owner and pointing at this lobby and its server, with its update timer at 0 and stamped with the current time; the lobby set is empty |
| Matchmaking.Lobby.AddUserToLobby | GameLobby.cpp:327-349 | the user is always marked in the lobby and inserted at most once; adding a present user leaves the set unchanged |
| Matchmaking.Lobby.GetRoomByNumber | GameLobby.cpp:426-442 | the result is null exactly when no room has the number, and otherwise is the last room with it, which with valid numbering is room n's slot |
| Matchmaking.Lobby.OccupancyList | GameLobby.cpp:81-99 | entry i is room i's player count, and entries past the last room are 0 |
| Matchmaking.Lobby.OnClientPacketReceived | GameLobby.cpp:121-324 | a seated client's packet is handled by its room alone; a client outside the lobby set changes nothing; otherwise JoinRoom, CreateRoom, Ack and KeepAlive have the effects below, and other packets change nothing; every room's update timer is unchanged |
| Matchmaking.Lobby.HandleJoinRoom | GameLobby.cpp:157-232 | admitted: an unreliable Ack(JoinRoom, number), then addPlayer as non-owner, then the client leaves the lobby set; refused: a RoomEmpty Nack echoing the number, nothing else changes; every room's update timer is unchanged |
| Matchmaking.Lobby.JoinFoundRoom | GameLobby.cpp:171-232 | the join branch once `getRoomByNumber` has given the room with the requested number, or null when there is none: admitted exactly when that room exists and has players, then acked and seated as HandleJoinRoom states; otherwise a RoomEmpty Nack echoing the number and nothing else changes; every room's update timer is unchanged |
| Matchmaking.Lobby.AdmitToJoin | GameLobby.cpp:177-193 | an admitted join sends the unreliable Ack(JoinRoom, number) first, then seats the client in that room as a non-owner (its Reset follows the Ack) and takes it out of the lobby set; no other room changes; every room's update timer is unchanged |
| Matchmaking.Lobby.HandleCreateRoom | GameLobby.cpp:234-293 | admitted: the client becomes the only player and the owner and leaves the lobby set, receiving the Reset and then an unreliable Ack(CreateRoom, number); refused: a RoomFull or BadRoomID Nack echoing the number, nothing else changes; every room's update timer is unchanged |
| Matchmaking.Lobby.RefreshLobbyUser | GameLobby.cpp:295-317 | an Ack refreshes last-seen and removes the acknowledged entry, a KeepAlive refreshes last-seen only, any other packet leaves the record unchanged; the user id is kept |
| Matchmaking.Lobby.CreateFoundRoom | GameLobby.cpp:248-293 | the create branch once `getRoomByNumber` has given the room with the requested number, or null when there is none: admitted exactly when that room exists and is empty, then seated as owner with the Reset before the Ack as HandleCreateRoom states; otherwise RoomFull for an occupied room and BadRoomID for a missing one, echoing the number, and nothing else changes; every room's update timer is unchanged |
| Matchmaking.Lobby.AdmitToCreate | GameLobby.cpp:251-264 | an admitted create makes the client the empty room's only player and its owner, takes it out of the lobby set, and sends the Reset before the unreliable Ack(CreateRoom, number); no other room changes; every room's update timer is unchanged |
| Matchmaking.Lobby.AddToRoom | GameLobby.cpp:192 | addPlayer on one room changes that room's seat only and keeps the lobby's room numbering valid; every room's update timer is unchanged |
| Matchmaking.Lobby.EndRoomOwnedBy | GameLobby.cpp:362-380 | the room the client sits in is ended exactly when the client is its owner and a server exists, and `wasOwner` reports whether the client owned it; the members then join the lobby set, return to the lobby with game id 0, keep their user ids and are sent their JoinLobby; otherwise nothing changes, including every member of the client's room; member lists, owners and room timers are kept |
| Matchmaking.Lobby.RemoveClientDueToInactivity | GameLobby.cpp:352-395 | a null client changes nothing; an owning client ends its room first, so the other members return to the lobby with game id 0 and are sent their JoinLobby; then the client is taken out of the lobby set and, if it was there, marked as not in the lobby; a non-owner's fellow members are untouched; user ids, member lists, owners and room timers are kept |
| Matchmaking.Lobby.RemoveSeated | GameLobby.cpp:362-394 | the removal of a client outside the lobby: the owner and non-owner outcomes of removeClientDueToInactivity |
| Matchmaking.Lobby.RemoveOwner | GameLobby.cpp:362-394 | an owner's room ends (members to the lobby with game id 0, each sent its JoinLobby, user ids kept) and the owner then leaves the lobby set and is marked as not in the lobby |
| Matchmaking.Lobby.RemoveNonOwner | GameLobby.cpp:362-394 | a seated non-owner only leaves the lobby set (marked as not in the lobby if it was there); no room, no fellow member and nothing on the server changes |
| Matchmaking.Lobby.DropFromLobby | GameLobby.cpp:382-394 | the client leaves the lobby set, and is marked as not in the lobby exactly when it was in the set; nothing else in its record changes |
| Matchmaking.Lobby.LeaveLobbyWithAck | GameLobby.cpp:256-265 | an admitted create takes the client out of the lobby set and sends it the unreliable Ack; the flag and the registry are unchanged |
| Matchmaking.Lobby.Answer | GameLobby.cpp:176-188 | an Ack or Nack reply is one unreliable send to the requesting client (also the sends at GameLobby.cpp lines 209, 229, 278 and 292); the flag and the registry are unchanged |
| Matchmaking.Lobby.Decline | GameLobby.cpp:196-209 | a refusal sends the Nack and changes nothing else: lobby set, seats, client and registry are kept (also the refusals at GameLobby.cpp lines 229, 278 and 292) |

## Left out

- WinSock setup, `recvfrom`/`sendto` and `WSACleanup` are operating-system
  I/O. A receive is modelled by the parameters of `Server.Step`, and a send
  as an entry appended to `Server.sent`.
- Console output is not modelled: `displayConnectedUsers`,
  `displayListOfLobbyUsers`, `printListOfLobbyUsers` and every `printf`
  warning.
- Random placement is not modelled. `CTFlag::resetPositionOfFlag` and the
  random spawn in `addPlayer` use float arithmetic on a random source; the
  resulting positions are the parameters `newFlag` and `spawn`.
- `UDPServer::sendPacket`, sequence-number stamping, the outstanding-packet
  bookkeeping on send, and retransmission are not part of this model.
  Packets are logged without header colour, number or timestamp, and
  nothing is added to a client's outstanding map on send.
- `updateLobby`, `updateGameRooms` and `sendListOfGamesToClients` are left
  out apart from the occupancy array. Their timers are wall-clock statics,
  and the broadcast loop has no further bookkeeping. `updateGameRoom` only
  calls `SendUpdatePacketsToPlayers`.
- `sendUserToGame` is an unused stub and is not modelled.
- Fire, hit, score and win-threshold logic is not modelled; no shown source
  implements it.
- Floating point is not modelled. Times, positions and yaw are exact `real`
  values, so `double`/`float` rounding is not captured.
- Byte-level storage is not modelled. Colours are unsigned bytes; the
  packet's `unsigned char` fields and the record's colour fields are not
  distinguished.
- The iteration order of `std::map` and `std::set` is not modelled. The
  registry's sweep and fan-out visit the keys in some order, which
  `SendPlayerDataToClients` returns. A room's member order is its insertion
  order.
- The registry's player-data snapshot has kind `PlayerData` (id 2), which
  the `PlayerDataPacket` constructor sets (UDPServer.hpp lines 18 and
  23-24). The constructor's default colour is not modelled, because the
  fan-out overwrites it with the client's colour.
- Registry.Server.Step: one `now` stands for the clock reads of one loop
  iteration. The source reads the clock separately in the sweep, in
  update-or-create and in the fan-out (UDPServer.cpp lines 165, 172, 214
  and 246), so the time that elapses between those reads is not modelled.
- Clients.Client.constructor: position and velocity start at the origin.
  The client constructor (ConnectedUDPClient.cpp lines 11-21) does not set
  them, and the vector type's constructor is not part of this model.
- Registry.Server.Step: uses the separated key of the Findings table rather
  than the colliding one, so the registry holds at most one client per
  endpoint.

## Findings

| source | as written | input that shows it | evidently intended | confidence | as-written member | corrected member |
|---|---|---|---|---|---|---|
| UDPServer.cpp:143-152 | the registry key is the IP text immediately followed by the port digits, with no separator | IP "10.0.0.1" with port 25 and IP "10.0.0.12" with port 5 both give the key "10.0.0.125", so two endpoints share one client record | one key per endpoint, for example IP, then ':', then port | not executed | Registry.KeysCollide | Registry.SeparatedKeyInjective |

=== FILE: clients.dfy ===
/** The per-client session record (ConnectedUDPClient) and the global
    client counter that drives id and colour assignment. */
module Clients {
  import opened Packets

  /** The game id of a client that is in no room. */
  const NOT_IN_GAME_ID: int := 0

  /** The colour table: counter values 1 to 9 each get their own colour;
      any other value gets none (the source leaves the fields unset). */
  function ColorFor(count: int): (c: Option<Color>)
    ensures c.Some? <==> 1 <= count <= 9
  {
    if count == 1 then Some(Color(250, 200, 200))
    else if count == 2 then Some(Color(220, 50, 50))
    else if count == 3 then Some(Color(50, 250, 50))
    else if count == 4 then Some(Color(50, 50, 250))
    else if count == 5 then Some(Color(200, 20, 200))
    else if count == 6 then Some(Color(20, 200, 200))
    else if count == 7 then Some(Color(100, 150, 65))
    else if count == 8 then Some(Color(50, 200, 130))
    else if count == 9 then Some(Color(250, 50, 140))
    else None
  }

  /** The nine colours of the table are pairwise distinct. */
  lemma ColorsDistinct(m: int, n: int)
    requires 1 <= m <= 9 && 1 <= n <= 9 && m != n
    ensures ColorFor(m) != ColorFor(n)
  {
  }

  /** The mutable part of a client record, as one value. */
  datatype ClientState = ClientState(
    lastSeen: real,
    position: Vec2,
    velocity: Vec2,
    orientation: real,
    inLobby: bool,
    gameId: int,
    outstanding: map<int, Packet>)

  /** The state of a freshly constructed client. */
  const InitialState: ClientState :=
    ClientState(0.0, Origin, Origin, 0.0, false, NOT_IN_GAME_ID, map[])

  /** The class-wide number of live clients (s_numberOfClients). */
  class ClientCounter {
    var count: int

    constructor ()
      ensures count == 0
    {
      count := 0;
    }
  }

  class Client {
    const playerId: int
    const color: Option<Color>
    var userId: string
    var lastSeen: real
    var position: Vec2
    var velocity: Vec2
    var orientation: real
    var inLobby: bool
    var gameId: int
    /** Reliable packets sent to this client and not yet acknowledged, by number. */
    var outstanding: map<int, Packet>

    function State(): ClientState
      reads this
    {
      ClientState(lastSeen, position, velocity, orientation, inLobby, gameId, outstanding)
    }

    /** Construction counts the client and derives its id and colour from the new count. */
    constructor (counter: ClientCounter)
      modifies counter
      ensures counter.count == old(counter.count) + 1
      ensures playerId == counter.count && color == ColorFor(counter.count)
      ensures userId == [] && State() == InitialState
    {
      playerId := counter.count + 1;
      color := ColorFor(counter.count + 1);
      userId := [];
      lastSeen := 0.0;
      position := Origin;
      velocity := Origin;
      orientation := 0.0;
      inLobby := false;
      gameId := NOT_IN_GAME_ID;
      outstanding := map[];
      new;
      counter.count := counter.count + 1;
    }

    /** Destruction: the counter goes down again. */
    method Release(counter: ClientCounter)
      modifies counter
      ensures counter.count == old(counter.count) - 1
    {
      counter.count := counter.count - 1;
    }
  }

  /** Because destruction decrements the counter, releasing the client
      whose id is the current count (the most recently created one, with no
      creation or release since) and then creating a client hands the new
      client that same id. */
  method IdReusedAfterRelease(counter: ClientCounter, first: Client) returns (second: Client)
    requires first.playerId == counter.count
    modifies counter
    ensures second != first && second.playerId == first.playerId
    ensures counter.count == first.playerId
  {
    first.Release(counter);
    second := new Client(counter);
  }
}

=== FILE: matchmaking.dfy ===
/** The matchmaking half of the server: game rooms (GameRoom) and the lobby
    that owns them (GameLobby). Both live in one module because a room
    points back at its lobby and the lobby holds its rooms. */
module Matchmaking {
  import opened Packets
  import opened Clients
  import opened Registry

  // ---------------------------------------------------------------------
  // Client-record transitions driven by packets
  // ---------------------------------------------------------------------

  /** The acknowledged kinds whose outstanding entry a room clears. */
  predicate RoomClearsAckOf(k: PacketKind)
  {
    k == Reset || k == Victory || k == JoinLobby
  }

  /** The client record after a room handles one of its packets: no room
      packet moves the client between the lobby and a room, and none adds
      or rewrites an outstanding entry. */
  function AfterRoomPacket(s: ClientState, p: Packet, now: real): (r: ClientState)
    ensures r.inLobby == s.inLobby && r.gameId == s.gameId
    ensures r.outstanding.Keys <= s.outstanding.Keys
    ensures forall n :: n in r.outstanding ==> r.outstanding[n] == s.outstanding[n]
  {
    match p.body
    case AckBody(k, n) =>
      var cleared := if RoomClearsAckOf(k) && n in s.outstanding then s.outstanding - {n} else s.outstanding;
      s.(lastSeen := now, outstanding := cleared)
    case UpdateBody(pos, vel, yaw) =>
      s.(lastSeen := now, position := pos, velocity := vel, orientation := yaw)
    case _ => s
  }

  /** The client record after the lobby handles an Ack, a KeepAlive or an
      unsupported packet (JoinRoom and CreateRoom move the client instead):
      the seat and the motion are kept, at most the acknowledged outstanding
      entry goes, and the record either is unchanged or only gains the new last-seen. */
  function AfterLobbyPacket(s: ClientState, b: Body, now: real): (r: ClientState)
    ensures r.inLobby == s.inLobby && r.gameId == s.gameId
    ensures r.position == s.position && r.velocity == s.velocity && r.orientation == s.orientation
    ensures r.outstanding.Keys == s.outstanding.Keys || (b.AckBody? && r.outstanding.Keys == s.outstanding.Keys - {b.ackNumber})
    ensures forall n :: n in r.outstanding ==> r.outstanding[n] == s.outstanding[n]
    ensures r == s || r.lastSeen == now
  {
    match b
    case AckBody(_, n) =>
      s.(lastSeen := now, outstanding := if n in s.outstanding then s.outstanding - {n} else s.outstanding)
    case KeepAliveBody => s.(lastSeen := now)
    case _ => s
  }

  /** A room Ack always refreshes last-seen and removes exactly the
      acknowledged entry, and only for Reset, Victory and JoinLobby acks. */
  lemma RoomAckEffect(s: ClientState, p: Packet, now: real)
    requires p.body.AckBody?
    ensures var r := AfterRoomPacket(s, p, now);
      && r.lastSeen == now
      && r.outstanding.Keys == s.outstanding.Keys - (if RoomClearsAckOf(p.body.ackKind) then {p.body.ackNumber} else {})
      && (forall n :: n in r.outstanding ==> r.outstanding[n] == s.outstanding[n])
      && r.(lastSeen := s.lastSeen, outstanding := s.outstanding) == s
  {
  }

  /** Handling the same Ack or Update twice is the same as handling it once. */
  lemma RoomPacketIdempotent(s: ClientState, p: Packet, now: real)
    ensures AfterRoomPacket(AfterRoomPacket(s, p, now), p, now) == AfterRoomPacket(s, p, now)
  {
  }

  /** An Update is copied verbatim: last-seen, position, velocity and
      orientation are the packet's, and every other field is kept. */
  lemma UpdateOverwrites(s: ClientState, p: Packet, now: real)
    requires p.body.UpdateBody?
    ensures var r := AfterRoomPacket(s, p, now);
      && r == ClientState(now, p.body.newPos, p.body.newVelocity, p.body.yawDegrees, s.inLobby, s.gameId, s.outstanding)
  {
  }

  /** A client-sent Reset (which a client must not send) changes nothing. */
  lemma ClientResetIgnored(s: ClientState, p: Packet, now: real)
    requires p.body.ResetBody? || p.body.VictoryBody?
    ensures AfterRoomPacket(s, p, now) == s
  {
  }

  /** The documented yaw range is not enforced: whatever yaw an Update
      carries, in range or not, is stored as is, so a stored orientation is
      in range exactly when the packet's was. */
  lemma YawNotEnforced(s: ClientState, p: Packet, now: real)
    requires p.body.UpdateBody?
    ensures var r := AfterRoomPacket(s, p, now);
      && r.orientation == p.body.yawDegrees
      && (DocumentedYaw(r.orientation) <==> DocumentedYaw(p.body.yawDegrees))
  {
  }

  /** For the kinds a room clears, the room's Ack and the lobby's Ack agree;
      for any other kind only the lobby clears the entry. */
  lemma LobbyAckClearsEveryKind(s: ClientState, p: Packet, now: real)
    requires p.body.AckBody?
    ensures RoomClearsAckOf(p.body.ackKind) ==> AfterLobbyPacket(s, p.body, now) == AfterRoomPacket(s, p, now)
    ensures AfterLobbyPacket(s, p.body, now).outstanding.Keys == s.outstanding.Keys - {p.body.ackNumber}
  {
  }

  /** In the lobby a KeepAlive refreshes last-seen and nothing else. */
  lemma KeepAliveOnlyRefreshes(s: ClientState, now: real)
    ensures AfterLobbyPacket(s, KeepAliveBody, now) == s.(lastSeen := now)
  {
  }

  // ---------------------------------------------------------------------
  // What rooms send
  // ---------------------------------------------------------------------

  /** One Update snapshot per member: position, velocity and orientation. */
  function UpdateSnapshots(ps: seq<Client>): (r: seq<Body>)
    reads ps
    ensures |r| == |ps|
    ensures forall i :: 0 <= i < |ps| ==> r[i] == UpdateBody(ps[i].position, ps[i].velocity, ps[i].orientation)
  {
    seq(|ps|, i requires 0 <= i < |ps| reads ps => UpdateBody(ps[i].position, ps[i].velocity, ps[i].orientation))
  }

  /** The reliable Victory and Reset a member receives when someone wins. */
  function VictoryPair(p: Client, winner: Option<Color>, flag: Vec2): seq<Send>
    reads p
  {
    [Send(p, VictoryBody(winner), true), Send(p, ResetBody(flag, p.position, p.color), true)]
  }

  /** The victory broadcast: for each member in turn, its Victory then its Reset. */
  function VictorySends(ps: seq<Client>, winner: Option<Color>, flag: Vec2): (r: seq<Send>)
    reads ps
    ensures |r| == 2 * |ps|
  {
    if ps == [] then [] else VictorySends(ps[..|ps| - 1], winner, flag) + VictoryPair(ps[|ps| - 1], winner, flag)
  }

  /** Entry 2i of the victory broadcast is member i's Victory and entry
      2i+1 its Reset, both reliable, the Reset carrying the new flag and the
      member's own position and colour. */
  lemma {:induction false} VictorySendsAt(ps: seq<Client>, winner: Option<Color>, flag: Vec2, i: int)
    requires 0 <= i < |ps|
    ensures VictorySends(ps, winner, flag)[2 * i] == Send(ps[i], VictoryBody(winner), true)
    ensures VictorySends(ps, winner, flag)[2 * i + 1] == Send(ps[i], ResetBody(flag, ps[i].position, ps[i].color), true)
  {
    var n := |ps| - 1;
    if i < n {
      VictorySendsAt(ps[..n], winner, flag, i);
      assert ps[..n][i] == ps[i];
    }
  }

  /** Every packet of the victory broadcast is sent reliably. */
  lemma {:induction false} VictorySendsReliable(ps: seq<Client>, winner: Option<Color>, flag: Vec2)
    ensures forall s :: s in VictorySends(ps, winner, flag) ==> s.reliable
  {
    if ps != [] {
      VictorySendsReliable(ps[..|ps| - 1], winner, flag);
    }
  }

  /** The broadcast to one more member appends that member's pair. */
  lemma VictorySendsExtend(ps: seq<Client>, i: int, winner: Option<Color>, flag: Vec2)
    requires 0 <= i < |ps|
    ensures VictorySends(ps[..i + 1], winner, flag) == VictorySends(ps[..i], winner, flag) + VictoryPair(ps[i], winner, flag)
  {
    assert ps[..i + 1][..i] == ps[..i];
  }

  /** The JoinLobby each member of an ended room is sent, unreliably. */
  function LobbyReturnSends(ps: seq<Client>): (r: seq<Send>)
    ensures |r| == |ps|
    ensures forall i :: 0 <= i < |ps| ==> r[i] == Send(ps[i], JoinLobbyBody(ps[i].color), false)
  {
    seq(|ps|, i requires 0 <= i < |ps| => Send(ps[i], JoinLobbyBody(ps[i].color), false))
  }

  // ---------------------------------------------------------------------
  // Lobby admission rules
  // ---------------------------------------------------------------------

  /** The lobby's answer to a JoinRoom or CreateRoom request. */
  datatype Verdict = Admit | Refuse(error: ErrorCode)

  /** JoinRoom: only an existing room with players can be joined; an empty
      or an unknown room is refused as empty. */
  function JoinVerdict(roomExists: bool, occupancy: nat): (v: Verdict)
    ensures v.Admit? <==> roomExists && occupancy > 0
    ensures v.Refuse? ==> v.error == RoomEmpty
  {
    if roomExists && occupancy > 0 then Admit else Refuse(RoomEmpty)
  }

  /** CreateRoom: only an existing empty room can be created; a room with
      players is full, an unknown number is a bad id. */
  function CreateVerdict(roomExists: bool, occupancy: nat): (v: Verdict)
    ensures v.Admit? <==> roomExists && occupancy == 0
    ensures v.Refuse? ==> (v.error == BadRoomID <==> !roomExists)
  {
    if !roomExists then Refuse(BadRoomID)
    else if occupancy == 0 then Admit
    else Refuse(RoomFull)
  }

  /** For an existing room exactly one of JoinRoom and CreateRoom is admitted. */
  lemma ExactlyOneWayIn(occupancy: nat)
    ensures JoinVerdict(true, occupancy).Admit? != CreateVerdict(true, occupancy).Admit?
  {
  }

  /** For an unknown room both requests are refused, JoinRoom as RoomEmpty
      (not BadRoomID) and CreateRoom as BadRoomID. */
  lemma UnknownRoomRefused(occupancy: nat)
    ensures JoinVerdict(false, occupancy) == Refuse(RoomEmpty)
    ensures CreateVerdict(false, occupancy) == Refuse(BadRoomID)
  {
  }

  /** The reply to a request: an Ack or a Nack, echoing kind and number. */
  function Reply(kind: PacketKind, v: Verdict, number: int): (b: Body)
    ensures b.AckBody? <==> v.Admit?
    ensures b.AckBody? ==> b.ackKind == kind && b.ackNumber == number
    ensures b.NackBody? ==> b.error == v.error && b.refusedKind == kind && b.refusedNumber == number
  {
    if v.Admit? then AckBody(kind, number) else NackBody(v.error, kind, number)
  }

  // ---------------------------------------------------------------------
  // Game room
  // ---------------------------------------------------------------------

  class Room {
    const number: int
    const server: Server?
    const lobby: Lobby?
    var owner: Client?
    /** The member set, in iteration order. */
    var players: seq<Client>
    var packetDuration: real
    var lastTimeStamp: real

    ghost predicate Valid()
      reads this`players
    {
      Distinct(players)
    }

    /** Stores number, owner, server and lobby and starts the update timer;
        a non-null owner is added as the first player. */
    constructor (number: int, owner: Client?, server: Server?, lobby: Lobby?, spawn: Vec2, now: real)
      modifies if owner == null then {} else {owner, server}
      ensures Valid()
      ensures this.number == number && this.owner == owner && this.server == server && this.lobby == lobby
      ensures packetDuration == 0.0 && lastTimeStamp == now
      ensures players == (if owner != null && server != null then [owner] else [])
      ensures owner != null && server != null ==>
        && owner.State() == old(owner.State()).(inLobby := false, gameId := number, position := spawn)
        && server.sent == old(server.sent) + [Send(owner, ResetBody(server.flag, spawn, owner.color), true)]
        && server.flag == old(server.flag) && server.Bookkeeping() == old(server.Bookkeeping())
      ensures owner != null && server == null ==> unchanged(owner)
      ensures owner != null ==> owner.userId == old(owner.userId)
    {
      this.number := number;
      this.server := server;
      this.lobby := lobby;
      this.owner := owner;
      players := [];
      packetDuration := 0.0;
      lastTimeStamp := now;
      new;
      if owner != null {
        AddPlayer(owner, false, spawn);
      }
    }

    /** addPlayer: a new member leaves the lobby, takes this room's number
        and the spawn position, and is sent one reliable Reset; a null
        player, a null server or a current member changes nothing. */
    method AddPlayer(player: Client?, becomeOwner: bool, spawn: Vec2)
      requires Valid()
      modifies this`players, this`owner, player, server
      ensures Valid()
      ensures player == null || server == null || player in old(players) ==>
        && players == old(players) && owner == old(owner)
        && (player != null ==> unchanged(player))
        && (server != null ==> unchanged(server))
      ensures player != null && server != null && player !in old(players) ==>
        && players == old(players) + [player]
        && owner == (if becomeOwner then player else old(owner))
        && player.State() == old(player.State()).(inLobby := false, gameId := number, position := spawn)
        && player.userId == old(player.userId)
        && server.sent == old(server.sent) + [Send(player, ResetBody(server.flag, spawn, player.color), true)]
        && server.flag == old(server.flag) && server.Bookkeeping() == old(server.Bookkeeping())
    {
      if player == null || server == null || player in players {
        return;
      }
      player.inLobby := false;
      player.gameId := number;
      players := players + [player];
      if becomeOwner {
        owner := player;
      }
      player.position := spawn;
      server.sent := server.sent + [Send(player, ResetBody(server.flag, spawn, player.color), true)];
    }

    /** A room's packet handler. A Victory moves the flag to `newFlag` and
        broadcasts; the client record changes as AfterRoomPacket says. */
    method OnClientPacketReceived(client: Client?, pkt: Packet, now: real, newFlag: Vec2)
      requires client != null && pkt.body.VictoryBody? ==> server != null
      modifies client, server
      ensures client != null ==> client.State() == AfterRoomPacket(old(client.State()), pkt, now)
      ensures client != null ==> client.userId == old(client.userId)
      ensures client == null || !pkt.body.VictoryBody? ==> server != null ==> unchanged(server)
      ensures client != null && pkt.body.VictoryBody? && server != null ==>
        && server.flag == newFlag
        && server.sent == old(server.sent) + VictorySends(players, pkt.body.winnerColor, newFlag)
        && server.Bookkeeping() == old(server.Bookkeeping())
    {
      if client == null {
        return;
      }
      match pkt.body
      case AckBody(k, n) =>
        client.lastSeen := now;
        if RoomClearsAckOf(k) && n in client.outstanding {
          client.outstanding := client.outstanding - {n};
        }
      case VictoryBody(winner) =>
        server.flag := newFlag;
        SendVictoryAndResetPacketToAllClients(winner);
      case UpdateBody(pos, vel, yaw) =>
        client.lastSeen := now;
        client.position := pos;
        client.velocity := vel;
        client.orientation := yaw;
      case _ =>
    }

    /** Each member, in order, is sent a reliable Victory naming the winner
        and then a reliable Reset with the current flag and its own position. */
    method SendVictoryAndResetPacketToAllClients(winner: Option<Color>)
      modifies server
      ensures server != null ==>
        && server.sent == old(server.sent) + VictorySends(players, winner, server.flag)
        && server.flag == old(server.flag) && server.Bookkeeping() == old(server.Bookkeeping())
    {
      if server == null {
        return;
      }
      ghost var flag := server.flag;
      var i := 0;
      while i < |players|
        invariant 0 <= i <= |players|
        invariant server.flag == flag && server.Bookkeeping() == old(server.Bookkeeping())
        invariant server.sent == old(server.sent) + VictorySends(players[..i], winner, flag)
      {
        SendVictoryAndReset(players[i], winner);
        VictorySendsExtend(players, i, winner, flag);
        i := i + 1;
      }
      assert players[..i] == players;
    }

    /** One member's reliable Victory, then its reliable Reset with the
        current flag and its own position. */
    method SendVictoryAndReset(client: Client, winner: Option<Color>)
      requires server != null
      modifies server
      ensures server.sent == old(server.sent) + VictoryPair(client, winner, server.flag)
      ensures server.flag == old(server.flag) && server.Bookkeeping() == old(server.Bookkeeping())
    {
      server.sent := server.sent + [Send(client, VictoryBody(winner), true)];
      server.sent := server.sent + [Send(client, ResetBody(server.flag, client.position, client.color), true)];
    }

    /** The update timer and snapshot fan-out: once the accumulated time
        exceeds the interval it restarts at 0 and every member is sent every
        member's Update, |players| * |players| unreliable sends. */
    method SendUpdatePacketsToPlayers(now: real)
      modifies this`packetDuration, this`lastTimeStamp, server
      ensures server == null ==> packetDuration == old(packetDuration) && lastTimeStamp == old(lastTimeStamp)
      ensures server != null ==>
        var total := old(packetDuration) + (now - old(lastTimeStamp));
        && lastTimeStamp == now
        && server.flag == old(server.flag) && server.Bookkeeping() == old(server.Bookkeeping())
        && if total > TIME_DIF_SECONDS_FOR_PACKET_UPDATE then
             && packetDuration == 0.0
             && server.sent == old(server.sent) + FanOut(players, UpdateSnapshots(players))
             && |server.sent| == |old(server.sent)| + |players| * |players|
           else
             packetDuration == total && server.sent == old(server.sent)
    {
      if server == null {
        return;
      }
      packetDuration := packetDuration + (now - lastTimeStamp);
      if packetDuration > TIME_DIF_SECONDS_FOR_PACKET_UPDATE {
        packetDuration := 0.0;
        var snapshots := CollectUpdates();
        assert |FanOut(players, snapshots)| == |players| * |players|;
        server.SendToEach(players, snapshots);
      }
      lastTimeStamp := now;
    }

    /** The first loop of the update fan-out: one Update snapshot per
        member, in member order. */
    method CollectUpdates() returns (snapshots: seq<Body>)
      ensures snapshots == UpdateSnapshots(players)
    {
      snapshots := [];
      var i := 0;
      while i < |players|
        invariant 0 <= i <= |players|
        invariant snapshots == UpdateSnapshots(players[..i])
      {
        var client := players[i];
        snapshots := snapshots + [UpdateBody(client.position, client.velocity, client.orientation)];
        i := i + 1;
      }
      assert players[..i] == players;
    }

    /** endGameRoom: every member is put back in the lobby with game id 0
        and sent an unreliable JoinLobby; the member list itself is kept. */
    method EndGameRoom()
      requires Valid()
      modifies lobby, server, players
      ensures lobby == null || server == null ==> (lobby != null ==> unchanged(lobby)) && (server != null ==> unchanged(server))
      ensures lobby == null || server == null ==> forall j :: 0 <= j < |players| ==> unchanged(players[j])
      ensures lobby != null && server != null ==>
        && lobby.lobbyUsers == old(lobby.lobbyUsers) + (set p | p in players)
        && lobby.rooms == old(lobby.rooms)
        && server.sent == old(server.sent) + LobbyReturnSends(players)
        && server.flag == old(server.flag) && server.Bookkeeping() == old(server.Bookkeeping())
        && (forall j :: 0 <= j < |players| ==> players[j].State() == old(players[j].State()).(inLobby := true, gameId := 0))
        && (forall j :: 0 <= j < |players| ==> players[j].userId == old(players[j].userId))
    {
      if lobby == null || server == null {
        return;
      }
      var i := 0;
      while i < |players|
        invariant 0 <= i <= |players|
        invariant lobby.lobbyUsers == old(lobby.lobbyUsers) + (set j | 0 <= j < i :: players[j])
        invariant lobby.rooms == old(lobby.rooms)
        invariant server.sent == old(server.sent) + LobbyReturnSends(players[..i])
        invariant server.flag == old(server.flag) && server.Bookkeeping() == old(server.Bookkeeping())
        invariant forall j :: 0 <= j < i ==> players[j].State() == old(players[j].State()).(inLobby := true, gameId := 0)
        invariant forall j :: i <= j < |players| ==> players[j].State() == old(players[j].State())
        invariant forall j :: 0 <= j < |players| ==> players[j].userId == old(players[j].userId)
      {
        ghost var others := players[..i];
        assert players[i] !in others;
        ReturnToLobby(players[i]);
        assert LobbyReturnSends(players[..i + 1]) == LobbyReturnSends(players[..i]) + [Send(players[i], JoinLobbyBody(players[i].color), false)];
        assert (set j | 0 <= j < i + 1 :: players[j]) == (set j | 0 <= j < i :: players[j]) + {players[i]};
        i := i + 1;
      }
      assert (set j | 0 <= j < |players| :: players[j]) == (set p | p in players);
      assert players[..i] == players;
    }

    /** One member of an ending room goes back to the lobby with game id 0
        and is sent an unreliable JoinLobby. */
    method ReturnToLobby(client: Client)
      requires lobby != null && server != null
      modifies lobby, server, client
      ensures lobby.lobbyUsers == old(lobby.lobbyUsers) + {client} && lobby.rooms == old(lobby.rooms)
      ensures server.sent == old(server.sent) + [Send(client, JoinLobbyBody(client.color), false)]
      ensures server.flag == old(server.flag) && server.Bookkeeping() == old(server.Bookkeeping())
      ensures client.State() == old(client.State()).(inLobby := true, gameId := 0) && client.userId == old(client.userId)
    {
      lobby.AddUserToLobby(client);
      client.inLobby := true;
      client.gameId := 0;
      server.sent := server.sent + [Send(client, JoinLobbyBody(client.color), false)];
    }
  }

  // ---------------------------------------------------------------------
  // Game lobby
  // ---------------------------------------------------------------------

  class Lobby {
    const server: Server?
    /** NUM_GAME_ROOMS. */
    const numRooms: nat
    var rooms: seq<Room>
    var lobbyUsers: set<Client>

    /** Rooms are numbered 1, 2, ... in order, point back at this lobby and
        its server, and each keeps its member list duplicate-free. */
    ghost predicate Valid()
      reads this`rooms, rooms
    {
      forall i :: 0 <= i < |rooms| ==>
        rooms[i].number == i + 1 && rooms[i].lobby == this && rooms[i].server == server && rooms[i].Valid()
    }

    constructor (server: Server?, numRooms: nat, now: real)
      ensures Valid() && this.server == server && this.numRooms == numRooms
      ensures |rooms| == numRooms && lobbyUsers == {}
      ensures forall i :: 0 <= i < |rooms| ==> fresh(rooms[i]) && rooms[i].owner == null && rooms[i].players == []
      ensures forall i :: 0 <= i < |rooms| ==> rooms[i].packetDuration == 0.0 && rooms[i].lastTimeStamp == now
    {
      this.server := server;
      this.numRooms := numRooms;
      rooms := [];
      lobbyUsers := {};
      new;
      var i := 1;
      while i <= numRooms
        invariant 1 <= i <= numRooms + 1
        invariant |rooms| == i - 1 && lobbyUsers == {}
        invariant forall j :: 0 <= j < |rooms| ==>
          && fresh(rooms[j]) && rooms[j].number == j + 1 && rooms[j].lobby == this && rooms[j].server == server
          && rooms[j].owner == null && rooms[j].players == []
          && rooms[j].packetDuration == 0.0 && rooms[j].lastTimeStamp == now
      {
        var room := new Room(i, null, server, this, Origin, now);
        rooms := rooms + [room];
        i := i + 1;
      }
    }

    /** Each room's seating: its member list and its owner. */
    ghost function Seats(): (s: seq<(seq<Client>, Client?)>)
      reads this`rooms, rooms
      ensures |s| == |rooms|
      ensures forall i :: 0 <= i < |rooms| ==> s[i] == (rooms[i].players, rooms[i].owner)
    {
      var rs := rooms;
      seq(|rs|, i requires 0 <= i < |rs| reads rs => (rs[i].players, rs[i].owner))
    }

    /** Every room except the one at index `except` keeps its member list
        and owner (pass -1 to keep them all). */
    twostate predicate SeatsKept(except: int)
      reads this`rooms, rooms
    {
      Seats() == if 0 <= except < |rooms| == |old(rooms)| then old(Seats())[except := Seats()[except]] else old(Seats())
    }

    /** Each room's update timer: its packet duration and last time stamp. */
    ghost function Timers(): (t: seq<(real, real)>)
      reads this`rooms, rooms
      ensures |t| == |rooms|
      ensures forall i :: 0 <= i < |rooms| ==> t[i] == (rooms[i].packetDuration, rooms[i].lastTimeStamp)
    {
      var rs := rooms;
      seq(|rs|, i requires 0 <= i < |rs| reads rs => (rs[i].packetDuration, rs[i].lastTimeStamp))
    }

    /** getRoomByNumber: the last room carrying that number, or null when
        no room does; with rooms numbered 1.. in order that is room n-1's slot. */
    method GetRoomByNumber(n: int) returns (r: Room?)
      ensures r == null <==> forall i :: 0 <= i < |rooms| ==> rooms[i].number != n
      ensures r != null ==>
        exists i :: 0 <= i < |rooms| && rooms[i] == r && r.number == n && (forall j :: i < j < |rooms| ==> rooms[j].number != n)
      ensures Valid() ==> r == (if 1 <= n <= |rooms| then rooms[n - 1] else null)
    {
      r := null;
      var i := 0;
      while i < |rooms|
        invariant 0 <= i <= |rooms|
        invariant r == null <==> forall j :: 0 <= j < i ==> rooms[j].number != n
        invariant r != null ==>
          exists k :: 0 <= k < i && rooms[k] == r && r.number == n && (forall j :: k < j < i ==> rooms[j].number != n)
      {
        if rooms[i].number == n {
          r := rooms[i];
        }
        i := i + 1;
      }
    }

    /** The occupancy array of the lobby broadcast: entry i is room i's
        player count, and entries past the last room are 0. */
    method OccupancyList() returns (counts: seq<int>)
      requires |rooms| <= numRooms
      ensures |counts| == numRooms
      ensures forall i :: 0 <= i < |rooms| ==> counts[i] == |rooms[i].players|
      ensures forall i :: |rooms| <= i < numRooms ==> counts[i] == 0
    {
      // The array is zero-filled when there are fewer rooms than slots; with
      // exactly as many rooms every slot is overwritten below.
      counts := seq(numRooms, _ => 0);
      var i := 0;
      while i < |rooms|
        invariant 0 <= i <= |rooms| && |counts| == numRooms
        invariant forall j :: 0 <= j < i ==> counts[j] == |rooms[j].players|
        invariant forall j :: |rooms| <= j < numRooms ==> counts[j] == 0
      {
        counts := counts[i := |rooms[i].players|];
        i := i + 1;
      }
    }

    /** A packet from this client goes to a room: the client is not in the
        lobby and its game id names one of the rooms 1..|rooms|. */
    ghost predicate RoutesToRoom(c: Client)
      reads this`rooms, c
    {
      !c.inLobby && 1 <= c.gameId <= |rooms|
    }

    /** The lobby set, the seating, the client and the server are as before. */
    twostate predicate NothingChanged(client: Client)
      reads this, rooms, client, server
    {
      && lobbyUsers == old(lobbyUsers) && SeatsKept(-1)
      && unchanged(client) && (server != null ==> unchanged(server))
    }

    /** Only the send log changed, by appending `s`. */
    twostate predicate OnlySent(client: Client, s: seq<Send>)
      reads this, rooms, client, server
    {
      && lobbyUsers == old(lobbyUsers) && SeatsKept(-1) && unchanged(client)
      && server != null && server.sent == old(server.sent) + s
      && server.flag == old(server.flag) && server.Bookkeeping() == old(server.Bookkeeping())
    }

    /** The room handled the packet: the client record changed as
        AfterRoomPacket says and, on a Victory, the flag moved and the
        room's members were sent the victory broadcast. */
    twostate predicate RoomHandled(client: Client, room: Room, pkt: Packet, now: real, newFlag: Vec2)
      reads this, rooms, client, server, room, room.players
    {
      && lobbyUsers == old(lobbyUsers) && SeatsKept(-1)
      && client.State() == AfterRoomPacket(old(client.State()), pkt, now) && client.userId == old(client.userId)
      && (server != null ==>
            if pkt.body.VictoryBody? then
              && server.flag == newFlag && server.Bookkeeping() == old(server.Bookkeeping())
              && server.sent == old(server.sent) + VictorySends(room.players, pkt.body.winnerColor, newFlag)
            else unchanged(server))
    }

    /** The lobby handled an Ack, a KeepAlive or an unsupported packet: only
        the client record changed, as AfterLobbyPacket says. */
    twostate predicate LobbyHandled(client: Client, pkt: Packet, now: real)
      reads this, rooms, client, server
    {
      && lobbyUsers == old(lobbyUsers) && SeatsKept(-1)
      && client.State() == AfterLobbyPacket(old(client.State()), pkt.body, now) && client.userId == old(client.userId)
      && (server != null ==> unchanged(server))
    }

    /** A JoinRoom admitted to room k: the unreliable `reply`, then addPlayer
        as non-owner (a no-op for a current member), then the client leaves
        the lobby set. */
    twostate predicate JoinAdmitted(client: Client, k: int, spawn: Vec2, reply: Send)
      requires 0 <= k < |old(rooms)|
      reads this, rooms, client, server
    {
      var member := client in old(rooms[k].players);
      && server != null
      && lobbyUsers == old(lobbyUsers) - {client}
      && SeatsKept(k) && rooms[k].owner == old(rooms[k].owner)
      && rooms[k].players == (if member then old(rooms[k].players) else old(rooms[k].players) + [client])
      && client.State() == (if member then old(client.State()) else old(client.State()).(inLobby := false, gameId := k + 1, position := spawn))
      && client.userId == old(client.userId)
      && server.sent == old(server.sent) + [reply] + (if member then [] else [Send(client, ResetBody(server.flag, spawn, client.color), true)])
      && server.flag == old(server.flag) && server.Bookkeeping() == old(server.Bookkeeping())
    }

    /** JoinRoom(n): admitted (JoinVerdict) for an existing room with
        players, as JoinAdmitted says; refused otherwise with a RoomEmpty
        Nack and no other change. */
    twostate predicate JoinRoomHandled(client: Client, pkt: Packet, spawn: Vec2)
      requires pkt.body.JoinRoomBody?
      reads this, rooms, client, server
    {
      var n := pkt.body.joinRoom;
      var known := 1 <= n <= |old(rooms)|;
      var v := JoinVerdict(known, if known then |old(rooms[n - 1].players)| else 0);
      var reply := Send(client, Reply(JoinRoom, v, pkt.number), false);
      if v.Admit? then JoinAdmitted(client, n - 1, spawn, reply) else OnlySent(client, [reply])
    }

    /** A CreateRoom admitted to the empty room k: the client becomes its
        only player and owner and leaves the lobby set, and is sent the
        Reset and then the unreliable `reply`. */
    twostate predicate CreateAdmitted(client: Client, k: int, spawn: Vec2, reply: Send)
      requires 0 <= k < |old(rooms)|
      reads this, rooms, client, server
    {
      && server != null
      && lobbyUsers == old(lobbyUsers) - {client}
      && SeatsKept(k) && rooms[k].players == [client] && rooms[k].owner == client
      && client.State() == old(client.State()).(inLobby := false, gameId := k + 1, position := spawn)
      && client.userId == old(client.userId)
      && server.sent == old(server.sent) + [Send(client, ResetBody(server.flag, spawn, client.color), true), reply]
      && server.flag == old(server.flag) && server.Bookkeeping() == old(server.Bookkeeping())
    }

    /** CreateRoom(n): admitted (CreateVerdict) for an existing empty room,
        as CreateAdmitted says; refused otherwise with a RoomFull or
        BadRoomID Nack and no other change. */
    twostate predicate CreateRoomHandled(client: Client, pkt: Packet, spawn: Vec2)
      requires pkt.body.CreateRoomBody?
      reads this, rooms, client, server
    {
      var n := pkt.body.createRoom;
      var known := 1 <= n <= |old(rooms)|;
      var v := CreateVerdict(known, if known then |old(rooms[n - 1].players)| else 0);
      var reply := Send(client, Reply(CreateRoom, v, pkt.number), false);
      if v.Admit? then CreateAdmitted(client, n - 1, spawn, reply) else OnlySent(client, [reply])
    }

    /** The lobby's packet handler: a seated client's packet goes to its
        room; otherwise only a lobby user's JoinRoom, CreateRoom, Ack and
        KeepAlive have an effect. The server is dereferenced without a check
        when a Nack, Ack or the Victory flag move needs it. */
    method OnClientPacketReceived(client: Client?, pkt: Packet, now: real, spawn: Vec2, newFlag: Vec2)
      requires Valid()
      requires client != null && server == null ==>
        if RoutesToRoom(client) then !pkt.body.VictoryBody?
        else client in lobbyUsers ==> !pkt.body.JoinRoomBody? && !pkt.body.CreateRoomBody?
      modifies this`lobbyUsers, client, server, rooms
      ensures Valid() && rooms == old(rooms) && Timers() == old(Timers())
      ensures client == null ==> lobbyUsers == old(lobbyUsers) && SeatsKept(-1) && (server != null ==> unchanged(server))
      ensures client != null ==>
        if old(RoutesToRoom(client)) then RoomHandled(client, rooms[old(client.gameId) - 1], pkt, now, newFlag)
        else if old(client !in lobbyUsers) then NothingChanged(client)
        else if pkt.body.JoinRoomBody? then JoinRoomHandled(client, pkt, spawn)
        else if pkt.body.CreateRoomBody? then CreateRoomHandled(client, pkt, spawn)
        else LobbyHandled(client, pkt, now)
    {
      if client == null {
        return;
      }
      if !client.inLobby && client.gameId > 0 {
        var target: Room? := null;
        var i := 0;
        while i < |rooms| && target == null
          invariant 0 <= i <= |rooms|
          invariant target == null ==> forall j :: 0 <= j < i ==> rooms[j].number != client.gameId
          invariant target != null ==> 1 <= client.gameId <= |rooms| && target == rooms[client.gameId - 1]
        {
          if rooms[i].number == client.gameId {
            target := rooms[i];
          }
          i := i + 1;
        }
        if 1 <= client.gameId <= |rooms| {
          assert rooms[client.gameId - 1].number == client.gameId;
        }
        if target != null {
          target.OnClientPacketReceived(client, pkt, now, newFlag);
          return;
        }
      }
      if client !in lobbyUsers {
        return;
      }
      if pkt.body.JoinRoomBody? {
        HandleJoinRoom(client, pkt, spawn);
      } else if pkt.body.CreateRoomBody? {
        HandleCreateRoom(client, pkt, spawn);
      } else {
        RefreshLobbyUser(client, pkt.body, now);
      }
    }

    /** The Ack and KeepAlive branches of the lobby handler: the client's
        record changes as AfterLobbyPacket says; other kinds change nothing. */
    method RefreshLobbyUser(client: Client, b: Body, now: real)
      modifies client
      ensures client.State() == AfterLobbyPacket(old(client.State()), b, now) && client.userId == old(client.userId)
    {
      match b
      case AckBody(_, n) =>
        client.lastSeen := now;
        if n in client.outstanding {
          client.outstanding := client.outstanding - {n};
        }
      case KeepAliveBody =>
        client.lastSeen := now;
      case _ =>
    }

    /** The JoinRoom branch of the lobby handler. */
    method HandleJoinRoom(client: Client, pkt: Packet, spawn: Vec2)
      requires Valid() && server != null && pkt.body.JoinRoomBody?
      modifies this`lobbyUsers, client, server, rooms
      ensures Valid() && rooms == old(rooms) && Timers() == old(Timers())
      ensures JoinRoomHandled(client, pkt, spawn)
    {
      var room := GetRoomByNumber(pkt.body.joinRoom);
      assert lobbyUsers == old(lobbyUsers) && Seats() == old(Seats()) && Timers() == old(Timers());
      assert client.State() == old(client.State()) && client.userId == old(client.userId);
      assert server.sent == old(server.sent) && server.flag == old(server.flag) && server.Bookkeeping() == old(server.Bookkeeping());
      JoinFoundRoom(client, pkt, spawn, room);
    }

    /** HandleJoinRoom once the room with the requested number has been
        looked up: `room` is that room, or null when there is none. */
    method JoinFoundRoom(client: Client, pkt: Packet, spawn: Vec2, room: Room?)
      requires Valid() && server != null && pkt.body.JoinRoomBody?
      requires room == (if 1 <= pkt.body.joinRoom <= |rooms| then rooms[pkt.body.joinRoom - 1] else null)
      modifies this`lobbyUsers, client, server, rooms
      ensures Valid() && rooms == old(rooms) && Timers() == old(Timers())
      ensures JoinRoomHandled(client, pkt, spawn)
    {
      var n := pkt.body.joinRoom;
      // An empty room and an unknown room get the same Nack.
      if room != null && |room.players| != 0 {
        assert JoinVerdict(true, |rooms[n - 1].players|) == Admit;
        AdmitToJoin(client, n - 1, spawn, pkt.number);
      } else {
        ghost var known := 1 <= n <= |rooms|;
        assert JoinVerdict(known, if known then |rooms[n - 1].players| else 0) == Refuse(RoomEmpty);
        Decline(client, NackBody(RoomEmpty, JoinRoom, pkt.number));
      }
    }

    /** The admitted path of HandleJoinRoom, for room k. */
    method AdmitToJoin(client: Client, k: int, spawn: Vec2, number: int)
      requires Valid() && server != null && 0 <= k < |rooms|
      modifies this`lobbyUsers, client, server, rooms[k]
      ensures Valid() && rooms == old(rooms) && Timers() == old(Timers())
      ensures JoinAdmitted(client, k, spawn, Send(client, AckBody(JoinRoom, number), false))
    {
      Answer(client, AckBody(JoinRoom, number));
      AddToRoom(k, client, false, spawn);
      lobbyUsers := lobbyUsers - {client};
    }

    /** The CreateRoom branch of the lobby handler. */
    method HandleCreateRoom(client: Client, pkt: Packet, spawn: Vec2)
      requires Valid() && server != null && pkt.body.CreateRoomBody?
      modifies this`lobbyUsers, client, server, rooms
      ensures Valid() && rooms == old(rooms) && Timers() == old(Timers())
      ensures CreateRoomHandled(client, pkt, spawn)
    {
      var room := GetRoomByNumber(pkt.body.createRoom);
      assert lobbyUsers == old(lobbyUsers) && Seats() == old(Seats()) && Timers() == old(Timers());
      assert client.State() == old(client.State()) && client.userId == old(client.userId);
      assert server.sent == old(server.sent) && server.flag == old(server.flag) && server.Bookkeeping() == old(server.Bookkeeping());
      CreateFoundRoom(client, pkt, spawn, room);
    }

    /** HandleCreateRoom once the room with the requested number has been
        looked up: `room` is that room, or null when there is none. */
    method CreateFoundRoom(client: Client, pkt: Packet, spawn: Vec2, room: Room?)
      requires Valid() && server != null && pkt.body.CreateRoomBody?
      requires room == (if 1 <= pkt.body.createRoom <= |rooms| then rooms[pkt.body.createRoom - 1] else null)
      modifies this`lobbyUsers, client, server, rooms
      ensures Valid() && rooms == old(rooms) && Timers() == old(Timers())
      ensures CreateRoomHandled(client, pkt, spawn)
    {
      var n := pkt.body.createRoom;
      ghost var known := 1 <= n <= |rooms|;
      ghost var v := CreateVerdict(known, if known then |rooms[n - 1].players| else 0);
      if room != null && |room.players| == 0 {
        assert v == Admit;
        AdmitToCreate(client, n - 1, spawn, pkt.number);
      } else {
        // A full room and an unknown room get different error codes.
        var error := if room == null then BadRoomID else RoomFull;
        assert v == Refuse(error);
        Decline(client, NackBody(error, CreateRoom, pkt.number));
      }
    }

    /** The admitted path of HandleCreateRoom, for the empty room k. */
    method AdmitToCreate(client: Client, k: int, spawn: Vec2, number: int)
      requires Valid() && server != null && 0 <= k < |rooms| && rooms[k].players == []
      modifies this`lobbyUsers, client, server, rooms[k]
      ensures Valid() && rooms == old(rooms) && Timers() == old(Timers())
      ensures CreateAdmitted(client, k, spawn, Send(client, AckBody(CreateRoom, number), false))
    {
      AddToRoom(k, client, true, spawn);
      assert rooms[k].players == [client];
      label seated:
      LeaveLobbyWithAck(client, AckBody(CreateRoom, number));
      assert Seats() == old@seated(Seats()) && Timers() == old@seated(Timers());
      assert client.State() == old@seated(client.State()) && client.userId == old@seated(client.userId);
    }

    /** The end of an admitted CreateRoom: the client leaves the lobby set
        and is sent the unreliable Ack. */
    method LeaveLobbyWithAck(client: Client, ack: Body)
      requires server != null
      modifies this`lobbyUsers, server
      ensures lobbyUsers == old(lobbyUsers) - {client}
      ensures server.sent == old(server.sent) + [Send(client, ack, false)]
      ensures server.flag == old(server.flag) && server.Bookkeeping() == old(server.Bookkeeping())
    {
      lobbyUsers := lobbyUsers - {client};
      Answer(client, ack);
    }

    /** addPlayer on room k as the lobby sees it: only that room's seat
        changes, and the lobby stays valid. */
    method AddToRoom(k: int, client: Client, becomeOwner: bool, spawn: Vec2)
      requires Valid() && server != null && 0 <= k < |rooms|
      modifies client, server, rooms[k]
      ensures Valid() && Timers() == old(Timers())
      ensures var member := client in old(rooms[k].players);
        && SeatsKept(k)
        && rooms[k].players == (if member then old(rooms[k].players) else old(rooms[k].players) + [client])
        && rooms[k].owner == (if !member && becomeOwner then client else old(rooms[k].owner))
        && client.State() == (if member then old(client.State()) else old(client.State()).(inLobby := false, gameId := k + 1, position := spawn))
        && client.userId == old(client.userId)
        && server.sent == old(server.sent) + (if member then [] else [Send(client, ResetBody(server.flag, spawn, client.color), true)])
        && server.flag == old(server.flag) && server.Bookkeeping() == old(server.Bookkeeping())
    {
      var room := rooms[k];
      room.AddPlayer(client, becomeOwner, spawn);
      forall i | 0 <= i < |rooms| && i != k
        ensures rooms[i] != room
      {
        assert rooms[i].number != room.number;
      }
    }

    /** The client is seated in a room whose owner it is. */
    ghost predicate OwnsItsRoom(c: Client)
      reads this`rooms, rooms, c
    {
      RoutesToRoom(c) && rooms[c.gameId - 1].owner == c
    }

    /** removeClientDueToInactivity: if the client owns the room it sits in,
        that room ends (its members return to the lobby, its member list and
        owner stay); then the client, if in the lobby set, is taken out of it
        and marked as not in the lobby. */
    method RemoveClientDueToInactivity(c: Client?)
      requires Valid()
      modifies this, c, server, if c != null && RoutesToRoom(c) then rooms[c.gameId - 1].players else []
      ensures Valid() && rooms == old(rooms) && SeatsKept(-1) && Timers() == old(Timers())
      ensures c == null ==> lobbyUsers == old(lobbyUsers) && (server != null ==> unchanged(server))
      ensures c != null ==> c !in lobbyUsers && c.userId == old(c.userId)
      ensures c != null && old(OwnsItsRoom(c)) && server != null ==>
        var ps := rooms[old(c.gameId) - 1].players;
        && lobbyUsers == (old(lobbyUsers) + (set p | p in ps)) - {c}
        && server.sent == old(server.sent) + LobbyReturnSends(ps)
        && server.flag == old(server.flag) && server.Bookkeeping() == old(server.Bookkeeping())
        && (forall j :: 0 <= j < |ps| ==>
              && ps[j].userId == old(ps[j].userId)
              && (ps[j] != c ==> ps[j].State() == old(ps[j].State()).(inLobby := true, gameId := 0)))
        && c.State() == old(c.State()).(inLobby := false, gameId := if c in ps then 0 else old(c.gameId))
      ensures c != null && !(old(OwnsItsRoom(c)) && server != null) ==>
        && lobbyUsers == old(lobbyUsers) - {c}
        && c.State() == (if old(c in lobbyUsers) then old(c.State()).(inLobby := false) else old(c.State()))
        && (server != null ==> unchanged(server))
        && (old(RoutesToRoom(c)) ==>
              var ps := old(rooms[c.gameId - 1].players);
              forall j :: 0 <= j < |ps| && ps[j] != c ==> ps[j].State() == old(ps[j].State()) && ps[j].userId == old(ps[j].userId))
    {
      if c == null {
        return;
      }
      if c.inLobby {
        DropFromLobby(c);
      } else {
        RemoveSeated(c);
      }
    }

    /** removeClientDueToInactivity for a client that is not in the lobby:
        the room it owns, if any, ends; then it leaves the lobby set. */
    method RemoveSeated(c: Client)
      requires Valid() && !c.inLobby
      modifies this, c, server, if RoutesToRoom(c) then rooms[c.gameId - 1].players else []
      ensures Valid() && rooms == old(rooms) && SeatsKept(-1) && Timers() == old(Timers())
      ensures c !in lobbyUsers && c.userId == old(c.userId)
      ensures old(OwnsItsRoom(c)) && server != null ==>
        var ps := rooms[old(c.gameId) - 1].players;
        && lobbyUsers == (old(lobbyUsers) + (set p | p in ps)) - {c}
        && server.sent == old(server.sent) + LobbyReturnSends(ps)
        && server.flag == old(server.flag) && server.Bookkeeping() == old(server.Bookkeeping())
        && (forall j :: 0 <= j < |ps| ==>
              && ps[j].userId == old(ps[j].userId)
              && (ps[j] != c ==> ps[j].State() == old(ps[j].State()).(inLobby := true, gameId := 0)))
        && c.State() == old(c.State()).(inLobby := false, gameId := if c in ps then 0 else old(c.gameId))
      ensures !(old(OwnsItsRoom(c)) && server != null) ==>
        && lobbyUsers == old(lobbyUsers) - {c}
        && c.State() == (if old(c in lobbyUsers) then old(c.State()).(inLobby := false) else old(c.State()))
        && (server != null ==> unchanged(server))
        && (old(RoutesToRoom(c)) ==>
              var ps := old(rooms[c.gameId - 1].players);
              forall j :: 0 <= j < |ps| && ps[j] != c ==> ps[j].State() == old(ps[j].State()) && ps[j].userId == old(ps[j].userId))
    {
      if 1 <= c.gameId <= |rooms| && rooms[c.gameId - 1].owner == c && server != null {
        RemoveOwner(c);
      } else {
        RemoveNonOwner(c);
      }
    }

    /** removeClientDueToInactivity for the owner of the room it sits in:
        the room ends, its members return to the lobby, and the client
        then leaves the lobby set. */
    method RemoveOwner(c: Client)
      requires Valid() && OwnsItsRoom(c) && server != null
      modifies this, c, server, rooms[c.gameId - 1].players
      ensures Valid() && rooms == old(rooms) && SeatsKept(-1) && Timers() == old(Timers())
      ensures c.userId == old(c.userId)
      ensures var ps := rooms[old(c.gameId) - 1].players;
        && lobbyUsers == (old(lobbyUsers) + (set p | p in ps)) - {c}
        && server.sent == old(server.sent) + LobbyReturnSends(ps)
        && server.flag == old(server.flag) && server.Bookkeeping() == old(server.Bookkeeping())
        && (forall j :: 0 <= j < |ps| ==>
              && ps[j].userId == old(ps[j].userId)
              && (ps[j] != c ==> ps[j].State() == old(ps[j].State()).(inLobby := true, gameId := 0)))
        && c.State() == old(c.State()).(inLobby := false, gameId := if c in ps then 0 else old(c.gameId))
    {
      var wasOwner := EndRoomOwnedBy(c);
      DropFromLobby(c);
    }

    /** removeClientDueToInactivity for a seated client that owns no room:
        only the lobby set and the client's flag can change. */
    method RemoveNonOwner(c: Client)
      requires Valid() && !c.inLobby && !(OwnsItsRoom(c) && server != null)
      modifies this, c, server, if RoutesToRoom(c) then rooms[c.gameId - 1].players else []
      ensures Valid() && rooms == old(rooms) && SeatsKept(-1) && Timers() == old(Timers())
      ensures c.userId == old(c.userId)
      ensures lobbyUsers == old(lobbyUsers) - {c}
      ensures c.State() == (if old(c in lobbyUsers) then old(c.State()).(inLobby := false) else old(c.State()))
      ensures server != null ==> unchanged(server)
      ensures old(RoutesToRoom(c)) ==>
        var ps := old(rooms[c.gameId - 1].players);
        forall j :: 0 <= j < |ps| && ps[j] != c ==> ps[j].State() == old(ps[j].State()) && ps[j].userId == old(ps[j].userId)
    {
      var wasOwner := EndRoomOwnedBy(c);
      if RoutesToRoom(c) {
        // The members of the client's room are untouched by the room loop.
        ghost var ps := rooms[c.gameId - 1].players;
        assert forall j :: 0 <= j < |ps| ==> ps[j].State() == old(ps[j].State()) && ps[j].userId == old(ps[j].userId);
      }
      DropFromLobby(c);
    }

    /** The last step of removeClientDueToInactivity: a client in the lobby
        set is marked as not in the lobby and taken out of the set. */
    method DropFromLobby(c: Client)
      modifies this`lobbyUsers, c
      ensures lobbyUsers == old(lobbyUsers) - {c} && c.userId == old(c.userId)
      ensures c.State() == (if old(c in lobbyUsers) then old(c.State()).(inLobby := false) else old(c.State()))
    {
      if c in lobbyUsers {
        c.inLobby := false;
        lobbyUsers := lobbyUsers - {c};
      }
    }

    /** The room loop of removeClientDueToInactivity: the room carrying the
        client's game id is ended when the client is its owner, and
        `wasOwner` says whether it was. */
    method EndRoomOwnedBy(c: Client) returns (wasOwner: bool)
      requires Valid() && !c.inLobby
      modifies this, server, if RoutesToRoom(c) then rooms[c.gameId - 1].players else []
      ensures Valid() && rooms == old(rooms) && SeatsKept(-1) && Timers() == old(Timers())
      ensures wasOwner == old(OwnsItsRoom(c))
      ensures wasOwner && server != null ==>
        var ps := rooms[old(c.gameId) - 1].players;
        && lobbyUsers == old(lobbyUsers) + (set p | p in ps)
        && server.sent == old(server.sent) + LobbyReturnSends(ps)
        && server.flag == old(server.flag) && server.Bookkeeping() == old(server.Bookkeeping())
        && (forall j :: 0 <= j < |ps| ==> ps[j].State() == old(ps[j].State()).(inLobby := true, gameId := 0))
        && (forall j :: 0 <= j < |ps| ==> ps[j].userId == old(ps[j].userId))
        && (c !in ps ==> unchanged(c))
      ensures !(wasOwner && server != null) ==>
        && lobbyUsers == old(lobbyUsers) && unchanged(c) && (server != null ==> unchanged(server))
        && (RoutesToRoom(c) ==>
              var ps := rooms[c.gameId - 1].players;
              forall j :: 0 <= j < |ps| ==> ps[j].State() == old(ps[j].State()) && ps[j].userId == old(ps[j].userId))
    {
      var target: Room? := null;
      var i := 0;
      while i < |rooms|
        invariant 0 <= i <= |rooms|
        invariant target == null ==> forall j :: 0 <= j < i ==> !(rooms[j].number == c.gameId && rooms[j].owner == c)
        invariant target != null ==> OwnsItsRoom(c) && target == rooms[c.gameId - 1]
      {
        if rooms[i].number == c.gameId && c == rooms[i].owner {
          target := rooms[i];
        }
        i := i + 1;
      }
      if RoutesToRoom(c) {
        assert rooms[c.gameId - 1].number == c.gameId;
      }
      wasOwner := target != null;
      if wasOwner {
        target.EndGameRoom();
      }
    }

    /** An unreliable Ack or Nack to the requesting client. */
    method Answer(client: Client, b: Body)
      requires server != null
      modifies server
      ensures server.sent == old(server.sent) + [Send(client, b, false)]
      ensures server.flag == old(server.flag) && server.Bookkeeping() == old(server.Bookkeeping())
    {
      server.sent := server.sent + [Send(client, b, false)];
    }

    /** A refusal: the Nack is sent and nothing else changes. */
    method Decline(client: Client, b: Body)
      requires Valid() && server != null
      modifies server
      ensures Valid() && OnlySent(client, [Send(client, b, false)])
    {
      Answer(client, b);
    }

    /** addUserToLobby: the user is marked as in the lobby and inserted at
        most once. */
    method AddUserToLobby(user: Client?)
      modifies this`lobbyUsers, user
      ensures user == null ==> lobbyUsers == old(lobbyUsers)
      ensures user != null ==>
        && lobbyUsers == old(lobbyUsers) + {user}
        && user.State() == old(user.State()).(inLobby := true)
        && user.userId == old(user.userId)
      ensures user != null && old(user in lobbyUsers) ==> lobbyUsers == old(lobbyUsers)
    {
      if user == null {
        return;
      }
      user.inLobby := true;
      if user !in lobbyUsers {
        lobbyUsers := lobbyUsers + {user};
      }
    }
  }
}

=== FILE: packets.dfy ===
/** Packet kinds, payloads and the packet ordering of the game protocol
    (CS6Packet.hpp, together with the kinds the lobby revision and the
    PlayerDataPacket of the registry revision use). */
module Packets {

  datatype Option<T> = None | Some(value: T)

  /** An unsigned 8-bit wire value. */
  newtype byte = x: int | 0 <= x < 256

  /** A player's colour triple, also used as the player's identity on the wire. */
  datatype Color = Color(red: byte, green: byte, blue: byte)

  /** A 2D float vector; its components are copied, never computed on. */
  datatype Vec2 = Vec2(x: real, y: real)

  const Origin: Vec2 := Vec2(0.0, 0.0)

  /** No element occurs twice (what a std::set guarantees of its elements). */
  predicate Distinct<T(==)>(s: seq<T>)
  {
    forall i, j :: 0 <= i < j < |s| ==> s[i] != s[j]
  }

  /** A duplicate-free sequence has as many distinct elements as entries. */
  lemma {:induction false} DistinctCardinality<T>(s: seq<T>)
    requires Distinct(s)
    ensures |set x | x in s| == |s|
  {
    if s != [] {
      var init := s[..|s| - 1];
      DistinctCardinality(init);
      assert (set x | x in s) == (set x | x in init) + {s[|s| - 1]};
    }
  }

  /** Error codes carried by a negative acknowledgement. */
  datatype ErrorCode = RoomEmpty | RoomFull | BadRoomID

  /** Every packet kind named by either protocol revision. The lobby
      revision's Ack, JoinRoom, CreateRoom and LobbyUpdate are the
      protocol header's Acknowledge, JoinGame, CreateGame and GameList. */
  datatype PacketKind =
    | PlayerData | NewPlayerAck | PlayerExit
    | Ack | Victory | Update | Reset | LobbyUpdate | JoinRoom | CreateRoom | JoinLobby
    | Nack | KeepAlive

  /** The numeric type code of a kind, where the headers define one:
      every kind but Nack and KeepAlive has one. */
  function Code(k: PacketKind): (c: Option<int>)
    ensures c.Some? <==> k !in {Nack, KeepAlive}
  {
    match k
    case PlayerData => Some(2)
    case NewPlayerAck => Some(3)
    case PlayerExit => Some(4)
    case Ack => Some(10)
    case Victory => Some(11)
    case Update => Some(12)
    case Reset => Some(13)
    case LobbyUpdate => Some(14)
    case JoinRoom => Some(15)
    case CreateRoom => Some(16)
    case JoinLobby => Some(17)
    case Nack => None
    case KeepAlive => None
  }

  /** Reads a type code back into a kind; None for an unknown code. */
  function KindOfCode(c: int): (k: Option<PacketKind>)
    ensures k.Some? <==> c in {2, 3, 4, 10, 11, 12, 13, 14, 15, 16, 17}
  {
    if c == 2 then Some(PlayerData)
    else if c == 3 then Some(NewPlayerAck)
    else if c == 4 then Some(PlayerExit)
    else if c == 10 then Some(Ack)
    else if c == 11 then Some(Victory)
    else if c == 12 then Some(Update)
    else if c == 13 then Some(Reset)
    else if c == 14 then Some(LobbyUpdate)
    else if c == 15 then Some(JoinRoom)
    else if c == 16 then Some(CreateRoom)
    else if c == 17 then Some(JoinLobby)
    else None
  }

  /** The eight game-protocol kinds are coded 10 through 17. */
  lemma GameKindCodes(k: PacketKind)
    requires k in {Ack, Victory, Update, Reset, LobbyUpdate, JoinRoom, CreateRoom, JoinLobby}
    ensures Code(k).Some? && 10 <= Code(k).value <= 17
  {
  }

  /** No two kinds share a type code. */
  lemma CodesDistinct(j: PacketKind, k: PacketKind)
    requires Code(j).Some? && Code(j) == Code(k)
    ensures j == k
  {
  }

  /** Every coded kind is read back from its code ... */
  lemma KindOfCodeInverts(k: PacketKind)
    requires Code(k).Some?
    ensures KindOfCode(Code(k).value) == Some(k)
  {
  }

  /** ... and every known code is the code of the kind it reads as. */
  lemma CodeInvertsKindOf(c: int)
    requires KindOfCode(c).Some?
    ensures Code(KindOfCode(c).value) == Some(c)
  {
  }

  /** The payload union, one variant per kind that carries data. */
  datatype Body =
    | PlayerDataBody(playerId: int, position: Vec2, playerColor: Option<Color>)
    | NewPlayerAckBody(newPlayerId: int, newPosition: Vec2, newColor: Option<Color>)
    | AckBody(ackKind: PacketKind, ackNumber: int)
    | NackBody(error: ErrorCode, refusedKind: PacketKind, refusedNumber: int)
    | VictoryBody(winnerColor: Option<Color>)
    | UpdateBody(newPos: Vec2, newVelocity: Vec2, yawDegrees: real)
    | ResetBody(flag: Vec2, spawn: Vec2, resetColor: Option<Color>)
    | LobbyUpdateBody(playersInRoom: seq<int>)
    | JoinRoomBody(joinRoom: int)
    | CreateRoomBody(createRoom: int)
    | JoinLobbyBody(lobbyColor: Option<Color>)
    | KeepAliveBody

  /** A packet: header (colour, packet number, timestamp) and payload. */
  datatype Packet = Packet(color: Color, number: int, timestamp: real, body: Body)

  /** `operator<`: compares packet numbers and nothing else, so it is a
      strict order: no packet precedes itself. */
  predicate Less(a: Packet, b: Packet): (r: bool)
    ensures r ==> a != b
  {
    a.number < b.number
  }

  lemma LessTransitive(a: Packet, b: Packet, c: Packet)
    requires Less(a, b) && Less(b, c)
    ensures Less(a, c)
  {
  }

  /** Packets with the same number are equivalent under the ordering. */
  lemma EqualNumbersEquivalent(a: Packet, b: Packet)
    requires a.number == b.number
    ensures !Less(a, b) && !Less(b, a)
  {
  }

  /** The ordering ignores colour, timestamp and payload. */
  lemma LessIgnoresAllButNumber(a: Packet, b: Packet, a': Packet, b': Packet)
    requires a.number == a'.number && b.number == b'.number
    ensures Less(a, b) <==> Less(a', b')
  {
  }

  /** The documented range of an Update's yaw: 0 = east, counter-clockwise
      positive, 0 up to (not including) 360 degrees. Nothing enforces it. */
  predicate DocumentedYaw(yawDegrees: real)
  {
    0.0 <= yawDegrees < 360.0
  }
}

=== FILE: registry.dfy ===
/** The session registry of the UDP server (UDPServer): clients keyed by
    their address string, update-or-create on every datagram, the
    two-phase inactivity sweep, the all-to-all player-data fan-out and the
    order of the steps of one server loop iteration. */
module Registry {
  import opened Packets
  import opened Clients

  /** Seconds of silence after which a client is dropped. */
  const DURATION_THRESHOLD_FOR_DISCONNECT: real := 5.0
  /** Seconds between two snapshot fan-outs. */
  const TIME_DIF_SECONDS_FOR_PACKET_UPDATE: real := 0.0045

  /** One transmission: destination, payload and whether it was sent reliably. */
  datatype Send = Send(to: Client, body: Body, reliable: bool)

  // ---------------------------------------------------------------------
  // Address keys

  function DigitChar(d: int): char
    requires 0 <= d < 10
  {
    ('0' as int + d) as char
  }

  predicate AllDigits(s: string)
  {
    forall i :: 0 <= i < |s| ==> '0' <= s[i] <= '9'
  }

  /** Base-10 digits of a natural number, most significant first. */
  function Digits(n: nat): (s: string)
    ensures |s| >= 1 && AllDigits(s)
  {
    if n < 10 then [DigitChar(n)] else Digits(n / 10) + [DigitChar(n % 10)]
  }

  /** The value a digit string denotes. */
  function DigitsValue(s: string): nat
    requires AllDigits(s)
  {
    if s == [] then 0
    else
      assert '0' <= s[|s| - 1];
      DigitsValue(s[..|s| - 1]) * 10 + (s[|s| - 1] as int - '0' as int)
  }

  lemma {:induction false} DigitsRoundTrip(n: nat)
    ensures DigitsValue(Digits(n)) == n
  {
    if n >= 10 {
      DigitsRoundTrip(n / 10);
      var s := Digits(n);
      assert s[..|s| - 1] == Digits(n / 10);
    }
  }

  /** `itoa(n, buffer, 10)`: an optional minus sign, then the digits. */
  function DecimalString(n: int): (s: string)
    ensures |s| >= 1 && ':' !in s
  {
    if n < 0 then "-" + Digits(-n) else Digits(n)
  }

  /** Reads back what DecimalString writes. */
  function ParseDecimal(s: string): Option<int>
  {
    if |s| >= 2 && s[0] == '-' && AllDigits(s[1..]) then Some(0 - DigitsValue(s[1..]))
    else if |s| >= 1 && AllDigits(s) then Some(DigitsValue(s))
    else None
  }

  /** A minus sign followed by digits reads back as the negated value. */
  lemma ParseSigned(digits: string)
    requires |digits| >= 1 && AllDigits(digits)
    ensures ParseDecimal("-" + digits) == Some(0 - DigitsValue(digits))
  {
    assert ("-" + digits)[1..] == digits;
  }

  /** Digits alone read back as their value. */
  lemma ParseUnsigned(digits: string)
    requires |digits| >= 1 && AllDigits(digits)
    ensures ParseDecimal(digits) == Some(DigitsValue(digits))
  {
    assert digits[0] != '-';
  }

  lemma DecimalRoundTrip(n: int)
    ensures ParseDecimal(DecimalString(n)) == Some(n)
  {
    var m: nat := if n < 0 then -n else n;
    var digits := Digits(m);
    DigitsRoundTrip(m);
    assert DigitsValue(digits) == m;
    if n < 0 {
      ParseSigned(digits);
      assert DecimalString(n) == "-" + digits;
      assert ParseDecimal(DecimalString(n)) == Some(0 - m);
    } else {
      ParseUnsigned(digits);
      assert DecimalString(n) == digits;
      assert ParseDecimal(DecimalString(n)) == Some(m);
    }
  }

  /** convertIPAndPortToSingleString: appends the address text and then the
      port's decimal digits, with nothing between them, to what `out` held. */
  function AppendIpAndPort(out: string, ip: string, port: int): (r: string)
    ensures |r| == |out| + |ip| + |DecimalString(port)|
    ensures r[..|out|] == out
    ensures r[|out|..] == ip + DecimalString(port)
  {
    var tail := ip + DecimalString(port);
    assert (out + tail)[..|out|] == out && (out + tail)[|out|..] == tail;
    out + tail
  }

  /** Without a separator, two different endpoints produce the same key. */
  lemma KeysCollide()
    ensures ("10.0.0.1", 25) != ("10.0.0.12", 5)
    ensures AppendIpAndPort([], "10.0.0.1", 25) == AppendIpAndPort([], "10.0.0.12", 5)
  {
    assert Digits(25) == "25";
    assert Digits(5) == "5";
  }

  /** The key with a ':' between the address and the port. */
  function AppendIpAndPortSeparated(out: string, ip: string, port: int): (r: string)
    ensures |r| == |out| + |ip| + 1 + |DecimalString(port)|
    ensures r[..|out|] == out
    ensures r[|out|..] == ip + ([':'] + DecimalString(port))
  {
    var tail := ip + ([':'] + DecimalString(port));
    assert (out + tail)[..|out|] == out && (out + tail)[|out|..] == tail;
    out + tail
  }

  /** Index of the first ':' of a string (its length if there is none). */
  function FirstColon(s: string): nat
  {
    if s == [] || s[0] == ':' then 0 else 1 + FirstColon(s[1..])
  }

  lemma {:induction false} FirstColonAfter(ip: string, rest: string)
    requires ':' !in ip
    ensures FirstColon(ip + ([':'] + rest)) == |ip|
  {
    if ip != [] {
      FirstColonAfter(ip[1..], rest);
      assert (ip + ([':'] + rest))[1..] == ip[1..] + ([':'] + rest);
    }
  }

  /** A key with the separator splits back at its first ':'. */
  lemma SplitAtColon(ip: string, port: int)
    requires ':' !in ip
    ensures var key := AppendIpAndPortSeparated([], ip, port);
      && FirstColon(key) == |ip|
      && key[..|ip|] == ip
      && key[|ip| + 1..] == DecimalString(port)
  {
    var digits := DecimalString(port);
    var rest := [':'] + digits;
    var key := AppendIpAndPortSeparated([], ip, port);
    assert key == key[0..] == ip + rest;
    FirstColonAfter(ip, digits);
    assert key[..|ip|] == ip && key[|ip|..] == rest;
    assert rest[1..] == digits;
  }

  /** With the separator, the key determines the endpoint (dotted IPv4 text
      contains no ':'). */
  lemma SeparatedKeyInjective(ip1: string, port1: int, ip2: string, port2: int)
    requires ':' !in ip1 && ':' !in ip2
    requires AppendIpAndPortSeparated([], ip1, port1) == AppendIpAndPortSeparated([], ip2, port2)
    ensures ip1 == ip2 && port1 == port2
  {
    SplitAtColon(ip1, port1);
    SplitAtColon(ip2, port2);
    DecimalRoundTrip(port1);
    DecimalRoundTrip(port2);
  }

  // ---------------------------------------------------------------------
  // All-to-all fan-out

  /** Every body, in order, to one recipient, unreliably. */
  function SendAll(to: Client, bodies: seq<Body>): (r: seq<Send>)
    ensures |r| == |bodies|
    ensures forall j :: 0 <= j < |bodies| ==> r[j] == Send(to, bodies[j], false)
  {
    seq(|bodies|, j requires 0 <= j < |bodies| => Send(to, bodies[j], false))
  }

  /** Each recipient in turn is sent every body. */
  function FanOut(recipients: seq<Client>, bodies: seq<Body>): (r: seq<Send>)
    ensures |r| == |recipients| * |bodies|
  {
    if recipients == [] then []
    else
      var n := |recipients| - 1;
      assert |recipients| * |bodies| == n * |bodies| + |bodies|;
      FanOut(recipients[..n], bodies) + SendAll(recipients[n], bodies)
  }

  /** Send number i * |bodies| + j of a fan-out is body j to recipient i. */
  lemma {:induction false} FanOutAt(recipients: seq<Client>, bodies: seq<Body>, i: int, j: int)
    requires 0 <= i < |recipients| && 0 <= j < |bodies|
    ensures 0 <= i * |bodies| + j < |FanOut(recipients, bodies)|
    ensures FanOut(recipients, bodies)[i * |bodies| + j] == Send(recipients[i], bodies[j], false)
  {
    var n := |recipients| - 1;
    var front := FanOut(recipients[..n], bodies);
    assert |front| == n * |bodies|;
    if i < n {
      FanOutAt(recipients[..n], bodies, i, j);
    } else {
      assert i * |bodies| == |front|;
    }
  }

  /** The player-data snapshot of each client, in order. */
  function PlayerSnapshots(cs: seq<Client>): (r: seq<Body>)
    reads cs
    ensures |r| == |cs|
  {
    seq(|cs|, i requires 0 <= i < |cs| reads cs => PlayerDataBody(cs[i].playerId, cs[i].position, cs[i].color))
  }

  /** The records a key order visits. */
  function InOrder(clients: map<string, Client>, order: seq<string>): (r: seq<Client>)
    requires forall i :: 0 <= i < |order| ==> order[i] in clients
    ensures |r| == |order| && forall i :: 0 <= i < |order| ==> r[i] == clients[order[i]]
  {
    seq(|order|, i requires 0 <= i < |order| && order[i] in clients => clients[order[i]])
  }

  /** The acknowledgement a newly registered client is sent: its id, its
      position and its colour, unreliably. */
  function Welcome(c: Client, position: Vec2): Send
    reads c
  {
    Send(c, NewPlayerAckBody(c.playerId, position, c.color), false)
  }

  /** The fan-out accumulator after a call at `now`: the time since the
      previous call is added; the first call adds nothing. */
  function Accumulated(duration: real, stamp: Option<real>, now: real): real
  {
    duration + (if stamp.Some? then now - stamp.value else 0.0)
  }

  /** Time-out test of the inactivity sweep: strictly more than the threshold. */
  predicate TimedOut(lastSeen: real, now: real)
  {
    now - lastSeen > DURATION_THRESHOLD_FOR_DISCONNECT
  }

  class Server {
    const counter: ClientCounter
    var clients: map<string, Client>
    var sent: seq<Send>
    var flag: Vec2
    var packetDuration: real
    /** The fan-out's time of last call; None before the first call. */
    var fanOutStamp: Option<real>

    /** No client record is registered under two keys. */
    ghost predicate Valid()
      reads this`clients
    {
      forall k, k' :: k in clients && k' in clients && k != k' ==> clients[k] != clients[k']
    }

    /** The fields that room and lobby packet handling never touch. */
    ghost function Bookkeeping(): (map<string, Client>, real, Option<real>)
      reads this`clients, this`packetDuration, this`fanOutStamp
    {
      (clients, packetDuration, fanOutStamp)
    }

    ghost function ExpiredKeys(now: real): set<string>
      reads this`clients, clients.Values
    {
      set k | k in clients && TimedOut(clients[k].lastSeen, now)
    }

    /** The one registered record a datagram can update: the record under
        the datagram's key, when the receive result is positive. */
    ghost function Refreshed(receiveResult: int, ip: string, port: int): (r: set<Client>)
      reads this`clients
    {
      var key := AppendIpAndPortSeparated([], ip, port);
      if receiveResult > 0 && key in clients then {clients[key]} else {}
    }

    constructor (counter: ClientCounter)
      ensures Valid() && this.counter == counter
      ensures clients == map[] && sent == [] && flag == Origin
      ensures packetDuration == 0.0 && fanOutStamp == None
    {
      this.counter := counter;
      clients := map[];
      sent := [];
      flag := Origin;
      packetDuration := 0.0;
      fanOutStamp := None;
    }

    /** A datagram from a known key refreshes that client; one from an
        unknown key registers a new client under it and acknowledges it. */
    method UpdateOrCreateNewClient(key: string, position: Vec2, now: real)
      requires Valid()
      modifies this`clients, this`sent, counter, if key in clients then {clients[key]} else {}
      ensures Valid() && key in clients
      ensures old(key in clients) ==>
        && clients == old(clients)
        && sent == old(sent)
        && counter.count == old(counter.count)
        && clients[key].userId == old(clients[key].userId)
        && clients[key].State() == old(clients[key].State()).(lastSeen := now, position := position)
      ensures old(key !in clients) ==>
        var c := clients[key];
        && fresh(c)
        && clients == old(clients)[key := c]
        && counter.count == old(counter.count) + 1
        && c.playerId == counter.count && c.color == ColorFor(counter.count)
        && c.userId == key
        && c.State() == InitialState.(lastSeen := now, position := position)
        && sent == old(sent) + [Welcome(c, position)]
    {
      if key in clients {
        var client := clients[key];
        client.lastSeen := now;
        client.position := position;
      } else {
        var client := new Client(counter);
        client.userId := key;
        client.lastSeen := now;
        client.position := position;
        clients := clients[key := client];
        sent := sent + [Send(client, NewPlayerAckBody(client.playerId, client.position, client.color), false)];
      }
    }

    /** First phase of the sweep: the keys of every timed-out client. */
    method ExpiredClientKeys(now: real) returns (expired: seq<string>)
      ensures Distinct(expired)
      ensures forall k :: k in expired <==> k in clients && TimedOut(clients[k].lastSeen, now)
    {
      expired := [];
      var remaining := clients.Keys;
      while remaining != {}
        invariant remaining <= clients.Keys
        invariant Distinct(expired)
        invariant forall k :: k in expired ==> k !in remaining
        invariant forall k :: k in expired <==> k in clients && k !in remaining && TimedOut(clients[k].lastSeen, now)
        decreases remaining
      {
        var k :| k in remaining;
        if TimedOut(clients[k].lastSeen, now) {
          expired := expired + [k];
        }
        remaining := remaining - {k};
      }
    }

    /** checkForExpiredClients: collects the timed-out keys, then deletes
        each of those clients and erases its key. */
    method CheckForExpiredClients(now: real)
      requires Valid()
      modifies this`clients, counter
      ensures Valid()
      ensures clients.Keys == old(clients.Keys - ExpiredKeys(now))
      ensures forall k :: k in clients ==> clients[k] == old(clients[k])
      ensures forall k :: k in clients ==> !TimedOut(clients[k].lastSeen, now)
      ensures counter.count == old(counter.count - |ExpiredKeys(now)|)
    {
      var expired := ExpiredClientKeys(now);
      ghost var before := clients;
      var i := 0;
      while i < |expired|
        invariant 0 <= i <= |expired|
        invariant clients.Keys == before.Keys - (set j | 0 <= j < i :: expired[j])
        invariant forall k :: k in clients ==> clients[k] == before[k]
        invariant forall j :: i <= j < |expired| ==> expired[j] in clients
        invariant counter.count == old(counter.count) - i
      {
        if expired[i] in clients {
          var client := clients[expired[i]];
          client.Release(counter);
          clients := clients - {expired[i]};
        }
        i := i + 1;
      }
      DistinctCardinality(expired);
      assert (set j | 0 <= j < |expired| :: expired[j]) == (set k | k in expired);
      assert (set k | k in expired) == old(ExpiredKeys(now));
    }

    /** The first pass of the fan-out: one key order over all clients and
        each visited client's snapshot. */
    method SnapshotAll() returns (order: seq<string>, snapshots: seq<Body>)
      ensures Distinct(order) && (forall k :: k in order <==> k in clients)
      ensures snapshots == PlayerSnapshots(InOrder(clients, order))
    {
      order := [];
      snapshots := [];
      var remaining := clients.Keys;
      while remaining != {}
        invariant remaining <= clients.Keys
        invariant Distinct(order)
        invariant forall k :: k in order <==> k in clients && k !in remaining
        invariant snapshots == PlayerSnapshots(InOrder(clients, order))
        decreases remaining
      {
        var k :| k in remaining;
        var client := clients[k];
        snapshots := snapshots + [PlayerDataBody(client.playerId, client.position, client.color)];
        order := order + [k];
        remaining := remaining - {k};
      }
    }

    /** The inner send loop: every snapshot to one client, in order. */
    method SendAllTo(client: Client, snapshots: seq<Body>)
      modifies this`sent
      ensures sent == old(sent) + SendAll(client, snapshots)
    {
      var j := 0;
      while j < |snapshots|
        invariant 0 <= j <= |snapshots|
        invariant sent == old(sent) + SendAll(client, snapshots[..j])
      {
        sent := sent + [Send(client, snapshots[j], false)];
        j := j + 1;
        assert SendAll(client, snapshots[..j]) == SendAll(client, snapshots[..j - 1]) + [Send(client, snapshots[j - 1], false)];
      }
      assert snapshots[..j] == snapshots;
    }

    /** The outer send loop: every snapshot to every recipient. */
    method SendToEach(recipients: seq<Client>, snapshots: seq<Body>)
      modifies this`sent
      ensures sent == old(sent) + FanOut(recipients, snapshots)
    {
      var i := 0;
      while i < |recipients|
        invariant 0 <= i <= |recipients|
        invariant sent == old(sent) + FanOut(recipients[..i], snapshots)
      {
        SendAllTo(recipients[i], snapshots);
        assert recipients[..i + 1][..i] == recipients[..i];
        i := i + 1;
      }
      assert recipients[..i] == recipients;
    }

    /** sendPlayerDataToClients: accumulates the time since the last call;
        once it exceeds the interval the accumulator restarts at 0 and every
        client is sent every client's snapshot. `order` is the order in which
        the clients were visited (empty when nothing was sent). */
    method SendPlayerDataToClients(now: real) returns (order: seq<string>)
      modifies this`sent, this`packetDuration, this`fanOutStamp
      ensures fanOutStamp == Some(now)
      ensures var total := Accumulated(old(packetDuration), old(fanOutStamp), now);
        if total > TIME_DIF_SECONDS_FOR_PACKET_UPDATE then
          && packetDuration == 0.0
          && Distinct(order) && (forall k :: k in order <==> k in clients)
          && sent == old(sent) + FanOut(InOrder(clients, order), PlayerSnapshots(InOrder(clients, order)))
        else
          packetDuration == total && order == [] && sent == old(sent)
    {
      var last := if fanOutStamp.Some? then fanOutStamp.value else now;
      packetDuration := packetDuration + (now - last);
      order := [];
      if packetDuration > TIME_DIF_SECONDS_FOR_PACKET_UPDATE {
        packetDuration := 0.0;
        var snapshots;
        order, snapshots := SnapshotAll();
        SendToEach(InOrder(clients, order), snapshots);
      }
      fanOutStamp := Some(now);
    }

    /** One iteration of the server loop: sweep, then (on a positive receive
        result) update-or-create under the datagram's key, then fan-out.
        `order` is the order in which the fan-out visited the clients. */
    method Step(now: real, receiveResult: int, ip: string, port: int, position: Vec2) returns (order: seq<string>)
      requires Valid()
      modifies this`clients, this`sent, this`packetDuration, this`fanOutStamp, counter, Refreshed(receiveResult, ip, port)
      ensures Valid() && flag == old(flag)
      ensures forall k :: k in clients ==> !TimedOut(clients[k].lastSeen, now)
      ensures var key := AppendIpAndPortSeparated([], ip, port);
        && (receiveResult > 0 ==> clients.Keys == old(clients.Keys - ExpiredKeys(now)) + {key})
        && (receiveResult <= 0 ==> clients.Keys == old(clients.Keys - ExpiredKeys(now)))
      ensures var key := AppendIpAndPortSeparated([], ip, port);
        && (receiveResult > 0 ==> key in clients && clients[key].lastSeen == now && clients[key].position == position)
        && (receiveResult > 0 && key in old(ExpiredKeys(now)) ==> fresh(clients[key]))
        && (forall k :: k in old(ExpiredKeys(now)) && (receiveResult <= 0 || k != key) ==> k !in clients)
      ensures forall k :: k in old(clients) && k !in old(ExpiredKeys(now)) ==> k in clients && clients[k] == old(clients[k])
      ensures var key := AppendIpAndPortSeparated([], ip, port);
        forall k :: k in old(clients) && k !in old(ExpiredKeys(now)) && (receiveResult <= 0 || k != key) ==>
          clients[k].State() == old(clients[k].State()) && clients[k].userId == old(clients[k].userId)
      ensures var key := AppendIpAndPortSeparated([], ip, port);
        var isNew := receiveResult > 0 && key !in old(clients.Keys - ExpiredKeys(now));
        && counter.count == old(counter.count - |ExpiredKeys(now)|) + (if isNew then 1 else 0)
        && (isNew ==>
              && clients[key].userId == key && clients[key].playerId == counter.count
              && clients[key].color == ColorFor(counter.count)
              && clients[key].State() == InitialState.(lastSeen := now, position := position))
        && (receiveResult > 0 && !isNew ==>
              && clients[key].userId == old(clients[key].userId)
              && clients[key].State() == old(clients[key].State()).(lastSeen := now, position := position))
      ensures fanOutStamp == Some(now)
      ensures var key := AppendIpAndPortSeparated([], ip, port);
        var isNew := receiveResult > 0 && key !in old(clients.Keys - ExpiredKeys(now));
        var welcome := if isNew then [Welcome(clients[key], position)] else [];
        var total := Accumulated(old(packetDuration), old(fanOutStamp), now);
        if total > TIME_DIF_SECONDS_FOR_PACKET_UPDATE then
          && packetDuration == 0.0
          && Distinct(order) && (forall k :: k in order <==> k in clients)
          && sent == old(sent) + welcome + FanOut(InOrder(clients, order), PlayerSnapshots(InOrder(clients, order)))
        else
          packetDuration == total && order == [] && sent == old(sent) + welcome
    {
      SweepAndReceive(now, receiveResult, ip, port, position);
      order := SendPlayerDataToClients(now);
    }

    /** The first two steps of a server loop iteration: the sweep leaves no
        timed-out client, and the datagram's key is refreshed or registered
        after it; a key that is new after the sweep is a new client and is
        sent its acknowledgement. */
    method SweepAndReceive(now: real, receiveResult: int, ip: string, port: int, position: Vec2)
      requires Valid()
      modifies this`clients, this`sent, counter, Refreshed(receiveResult, ip, port)
      ensures Valid()
      ensures forall k :: k in clients ==> !TimedOut(clients[k].lastSeen, now)
      ensures var key := AppendIpAndPortSeparated([], ip, port);
        && (receiveResult > 0 ==> clients.Keys == old(clients.Keys - ExpiredKeys(now)) + {key})
        && (receiveResult <= 0 ==> clients.Keys == old(clients.Keys - ExpiredKeys(now)))
      ensures var key := AppendIpAndPortSeparated([], ip, port);
        && (receiveResult > 0 ==> key in clients && clients[key].lastSeen == now && clients[key].position == position)
        && (receiveResult > 0 && key in old(ExpiredKeys(now)) ==> fresh(clients[key]))
        && (forall k :: k in old(ExpiredKeys(now)) && (receiveResult <= 0 || k != key) ==> k !in clients)
      ensures forall k :: k in old(clients) && k !in old(ExpiredKeys(now)) ==> k in clients && clients[k] == old(clients[k])
      ensures var key := AppendIpAndPortSeparated([], ip, port);
        forall k :: k in old(clients) && k !in old(ExpiredKeys(now)) && (receiveResult <= 0 || k != key) ==>
          clients[k].State() == old(clients[k].State()) && clients[k].userId == old(clients[k].userId)
      ensures var key := AppendIpAndPortSeparated([], ip, port);
        var isNew := receiveResult > 0 && key !in old(clients.Keys - ExpiredKeys(now));
        && counter.count == old(counter.count - |ExpiredKeys(now)|) + (if isNew then 1 else 0)
        && sent == old(sent) + (if isNew then [Welcome(clients[key], position)] else [])
        && (isNew ==>
              && clients[key].userId == key && clients[key].playerId == counter.count
              && clients[key].color == ColorFor(counter.count)
              && clients[key].State() == InitialState.(lastSeen := now, position := position))
        && (receiveResult > 0 && !isNew ==>
              && clients[key].userId == old(clients[key].userId)
              && clients[key].State() == old(clients[key].State()).(lastSeen := now, position := position))
    {
      CheckForExpiredClients(now);
      ReceiveDatagram(receiveResult, ip, port, position, now);
    }

    /** The receive step of the server loop: on a positive receive result
        the datagram's key is refreshed or registered, as
        UpdateOrCreateNewClient does; otherwise nothing changes. Every entry
        keeps its record, and every entry but that key its record's
        timestamp. */
    method ReceiveDatagram(receiveResult: int, ip: string, port: int, position: Vec2, now: real)
      requires Valid()
      modifies this`clients, this`sent, counter, Refreshed(receiveResult, ip, port)
      ensures Valid()
      ensures var key := AppendIpAndPortSeparated([], ip, port);
        && (receiveResult > 0 ==> key in clients && clients[key].lastSeen == now && clients[key].position == position)
        && (receiveResult > 0 && key !in old(clients) ==> fresh(clients[key]))
        && (forall k :: k in old(clients) ==> k in clients && clients[k] == old(clients[k]))
        && (forall k :: k in clients && (receiveResult <= 0 || k != key) ==>
              k in old(clients) && clients[k].lastSeen == old(clients[k].lastSeen))
      ensures var key := AppendIpAndPortSeparated([], ip, port);
        && (receiveResult > 0 ==> clients.Keys == old(clients.Keys) + {key})
        && (receiveResult <= 0 ==> clients.Keys == old(clients.Keys))
      ensures receiveResult <= 0 ==> clients == old(clients) && sent == old(sent) && counter.count == old(counter.count)
      ensures var key := AppendIpAndPortSeparated([], ip, port);
        forall k :: k in old(clients) && (receiveResult <= 0 || k != key) ==>
          clients[k].State() == old(clients[k].State()) && clients[k].userId == old(clients[k].userId)
      ensures var key := AppendIpAndPortSeparated([], ip, port);
        receiveResult > 0 && key in old(clients) ==>
          && clients == old(clients) && sent == old(sent) && counter.count == old(counter.count)
          && clients[key].userId == old(clients[key].userId)
          && clients[key].State() == old(clients[key].State()).(lastSeen := now, position := position)
      ensures var key := AppendIpAndPortSeparated([], ip, port);
        receiveResult > 0 && key !in old(clients) ==>
          var c := clients[key];
          && clients == old(clients)[key := c]
          && counter.count == old(counter.count) + 1
          && c.playerId == counter.count && c.color == ColorFor(counter.count)
          && c.userId == key
          && c.State() == InitialState.(lastSeen := now, position := position)
          && sent == old(sent) + [Welcome(c, position)]
    {
      if receiveResult > 0 {
        var key := AppendIpAndPortSeparated([], ip, port);
        UpdateOrCreateNewClient(key, position, now);
      }
    }
  }
}
